=== FILE: README.md ===
# Dataset export reader and image downloader, in Dafny

This project models the bookkeeping logic of `clarifai_utils/dataset_export/dataset_export_inputs.py`, which has two classes.

- **`DatasetExportReader`** opens a dataset-version export. The export is a zip archive of protobuf `DataBatch` shards named `<dir>/<shard>_n<count>`. The reader:
  - lists the archive's members once;
  - takes the directory of the first member as the split directory;
  - estimates the number of records by summing the counts announced in the shard names, and caches that sum;
  - yields the records shard by shard.
- **`DataInputDownloader`** walks any record source. For every record whose `image.hosted.prefix` is set, it:
  - requires the `orig` size;
  - fetches `prefix + "/orig/" + suffix`;
  - stores the image as `<split>/<last segment of suffix>.jpg` in an output zip opened for appending;
  - counts what it wrote.

  At the end it checks that the output archive lists as many members as it counted.

Modules:

- `Results`: `Option`, `Result`, and one `Error` constructor per exception the code can raise.
- `PyStr`: Python's `str.split(sep)` (left-to-right, non-overlapping cuts) and its inverse `join`. Also `int(text)` for base-10 text: surrounding whitespace, an optional sign, and digits with single `_` separators. Also `str(n)`.
- `PosixPath`: `os.path.dirname` and two-argument `os.path.join` exactly as `posixpath` defines them, plus `text.split('/')[-1]`.
- `Zip`: the archive as an ordered list of `(name, bytes)` members. `namelist()` keeps duplicates. `read(name)` returns the last member with that name.
- `Records`: the slice of the `Data` message the code reads (`image.hosted.{prefix, suffix, sizes}`), and the shard decoder as a parameter.
- `ExportReader`: construction, `len`, and iteration of the reader. Iteration is a `Stream`: the records yielded, then normal exhaustion or the error that stopped the generator.
- `InputDownloader`: construction, effective split, the per-record step, the writing loop, the final check, and a whole download.
- `Scenario`: a worked two-shard export (`all/shard0_n2`, `all/shard1_n1`) run end to end.

The reader and the downloader are values. `Len` returns the reader with its cache updated. `Download` returns the downloader afterwards, the output archive's member list afterwards, and the error that ended the run. Members written before an error stay in the output archive, because the `with` block closes the archive on the way out.

Behaviour of the code that is easy to get wrong, which the model follows:

- Giving both an archive URL and a local path is not an error: the URL wins.
- A record with a hosted prefix but no `orig` size aborts the run. It is not skipped.
- When neither an explicit split nor a reader's split directory is available, `os.path.join(None, …)` raises. There is no empty-prefix fallback.
- Calling `len` on the reader before writing is not guarded against a malformed shard name. Only `TypeError` is caught there, so the `ValueError` aborts the download before the output archive is opened.
- The same holds for a count that `len()` itself rejects: a negative total, such as one from a shard named `x_n-5`, or a total above `sys.maxsize`.
- The counter `num_inputs` is initialised only by the constructor and never reset. A second download with the same downloader therefore fails its integrity check even when every image was written (`SecondDownloadFailsCheck`).
- The output archive is opened in append mode. Members already at the save path count in the final check, which passes exactly when their number equals the counter's value before the run (`DownloadCheckIff`).

## Model

| member | source | states |
|---|---|---|
| PyStr.Split | clarifai_utils/dataset_export/dataset_export_inputs.py:70 | `str.split` with an explicit separator always yields at least one piece |
| PyStr.SplitJoin | clarifai_utils/dataset_export/dataset_export_inputs.py:70 | joining the pieces of a split with the separator gives back the original text |
| PyStr.SplitUncut | clarifai_utils/dataset_export/dataset_export_inputs.py:70 | a text in which the separator's first character never occurs splits into itself alone |
| PyStr.LastPieceAfterSep | clarifai_utils/dataset_export/dataset_export_inputs.py:70 | the text after the last `_n` (or `/`) of `a + sep + b` is `b` when `b` holds no separator character, whatever `a` contains |
| PyStr.LastPieceShape | clarifai_utils/dataset_export/dataset_export_inputs.py:70 | `s.split(sep)[-1]` (`LastPiece`) is a suffix of `s` holding no copy of `sep`; it is all of `s` when nothing was cut, and otherwise it directly follows a copy of `sep` |
| PyStr.LastPieceOnChar | clarifai_utils/dataset_export/dataset_export_inputs.py:139 | `s.split(c)[-1]` is a suffix of `s` and contains no `c` |
| PyStr.ParseInt | clarifai_utils/dataset_export/dataset_export_inputs.py:70 | `int()` accepts text exactly when, after stripping tab, line feed, vertical tab, form feed, carriage return and space, it is a digit body with an optional leading sign: digits and underscores, ending in a digit, with every underscore between two digits. So `+5`, ` 5`, `007` and `1_000` are accepted, and `+`, `-`, `_`, `1_`, `_1` and `1__2` are rejected, not read as 0 |
| PyStr.DecimalValue | clarifai_utils/dataset_export/dataset_export_inputs.py:70 | the digits of `str(n)` denote `n` |
| PyStr.ParseDecimal | clarifai_utils/dataset_export/dataset_export_inputs.py:70 | `int(str(n)) == n` and `int("-" + str(n)) == -n` |
| PyStr.SeparatorIsNotSpace | clarifai_utils/dataset_export/dataset_export_inputs.py:70 | a number padded with one of the separators 0x1C-0x1F is not an integer to `int()`, so a shard name such as `s_n\x1c2` makes `len` fail rather than count 2 |
| PyStr.Decimal | clarifai_utils/dataset_export/dataset_export_inputs.py:70 | the decimal spelling of a count is non-empty and all digits |
| PosixPath.LastSlashEnd | clarifai_utils/dataset_export/dataset_export_inputs.py:61 | `rfind('/') + 1`: the position after a slash, with no slash after it, or 0 |
| PosixPath.TrimSlashes | clarifai_utils/dataset_export/dataset_export_inputs.py:61 | `rstrip('/')` removes exactly the trailing slashes |
| PosixPath.Dirname | clarifai_utils/dataset_export/dataset_export_inputs.py:61 | `os.path.dirname` is the text before the last slash with its trailing slashes removed: a prefix of that text, followed in it only by slashes, and empty, the root, or free of a trailing slash; when that text is all slashes (or empty) it is returned whole |
| PosixPath.LastSegment | clarifai_utils/dataset_export/dataset_export_inputs.py:139 | the last `/` segment of the suffix is a suffix of it, contains no slash, and is either the whole text or starts right after a slash |
| PosixPath.LastPieceAfterLastSlash | clarifai_utils/dataset_export/dataset_export_inputs.py:139 | `text.split('/')[-1]` equals the text after its last slash (`rfind('/') + 1`), an independent definition |
| PosixPath.PathJoin | clarifai_utils/dataset_export/dataset_export_inputs.py:140 | `os.path.join(a, b)`: an absolute `b` replaces `a`; otherwise the result starts with `a`, ends with `b`, and has one slash between them exactly when `a` is non-empty and does not already end in one |
| PosixPath.JoinSplitsBack | clarifai_utils/dataset_export/dataset_export_inputs.py:140 | `os.path.join` (`PathJoin`) is undone by `dirname` and the last segment: `dirname(join(d, b)) == d` and the last segment of `join(d, b)` is `b`, for any directory shaped like a `dirname` result and slash-free `b` |
| Zip.NameList | clarifai_utils/dataset_export/dataset_export_inputs.py:56 | `namelist()` lists every member's name in archive order |
| Zip.Read | clarifai_utils/dataset_export/dataset_export_inputs.py:80 | `read(name)` fails exactly when no member has that name |
| Zip.ReadLast | clarifai_utils/dataset_export/dataset_export_inputs.py:80 | `read(name)` returns the bytes of the last member with that name, whatever earlier members of that name hold |
| ExportReader.ChooseLocation | clarifai_utils/dataset_export/dataset_export_inputs.py:30-37 | construction fails exactly when neither source is truthy; a truthy URL wins over a local path |
| ExportReader.Open | clarifai_utils/dataset_export/dataset_export_inputs.py:20-61 | the reader holds the archive's full member list and an empty cache; its split directory is the dirname of the first member, or `""` for an empty archive |
| ExportReader.ShardCountOfName | clarifai_utils/dataset_export/dataset_export_inputs.py:70 | `int(name.split('_n')[-1])` (`ShardCount`): a shard named `<stem>_n<k>` announces exactly `k` records, even when the stem contains `_n`; one named `<stem>_n-<k>` announces `-k` |
| ExportReader.ShardTotal | clarifai_utils/dataset_export/dataset_export_inputs.py:67-71 | the count loop succeeds exactly when the tail of every name parses as an integer |
| ExportReader.ShardTotalFirstBad | clarifai_utils/dataset_export/dataset_export_inputs.py:67-71 | a failing count reports the first name whose tail does not parse, after names that all parsed |
| ExportReader.ShardTotalStep | clarifai_utils/dataset_export/dataset_export_inputs.py:69-71 | each name adds its announced count to the running total, and a bad name later in the list still fails the loop |
| ExportReader.Len | clarifai_utils/dataset_export/dataset_export_inputs.py:63-72 | `len` changes only the cache, and sets it to the value returned; it fails exactly when the cache is empty and a name is malformed; with no member list it returns 0 |
| ExportReader.LenCached | clarifai_utils/dataset_export/dataset_export_inputs.py:64-65 | once the cache is non-zero, `len` returns it whatever the member list holds |
| ExportReader.LenIdempotent | clarifai_utils/dataset_export/dataset_export_inputs.py:63-72 | a second `len` returns what the first did; a zero result does not stick, so the reader is unchanged |
| ExportReader.Batches | clarifai_utils/dataset_export/dataset_export_inputs.py:80 | one decoded batch per listed shard, in list order |
| ExportReader.Shards | clarifai_utils/dataset_export/dataset_export_inputs.py:78-82 | iteration runs to the end exactly when every listed shard can be read and decoded |
| ExportReader.ShardsStep | clarifai_utils/dataset_export/dataset_export_inputs.py:79-82 | a shard that decodes yields its records before those of the shards after it |
| ExportReader.ShardsYieldBatches | clarifai_utils/dataset_export/dataset_export_inputs.py:78-82 | a pass that runs to the end yields the concatenation of the decoded batches, in member-list order |
| ExportReader.Iterate | clarifai_utils/dataset_export/dataset_export_inputs.py:74-83 | `iter(reader)` yields nothing without a member list; otherwise it completes exactly when every listed shard reads and decodes, and then yields the concatenation of the decoded batches in list order |
| ExportReader.ShardsAppend | clarifai_utils/dataset_export/dataset_export_inputs.py:79-82 | iterating `xs + ys` yields the records of `xs` and then those of `ys`; a failure in `xs` stops it there |
| ExportReader.ShardsStopAtFirstFailure | clarifai_utils/dataset_export/dataset_export_inputs.py:80 | the first shard that cannot be read or decoded ends iteration with its error, after all records of the shards before it |
| ExportReader.ShardTotalCountsRecords | clarifai_utils/dataset_export/dataset_export_inputs.py:67-82 | when every shard name announces its batch size, the count sum equals the number of records iteration yields |
| ExportReader.LenMatchesIteration | clarifai_utils/dataset_export/dataset_export_inputs.py:63-82 | on a freshly opened reader with honest shard names, `len` equals the number of records iteration yields |
| InputDownloader.NewDownloader | clarifai_utils/dataset_export/dataset_export_inputs.py:105-110 | the counter starts at 0; a split prefix is captured exactly when the source is an export reader, and it is that reader's split directory |
| InputDownloader.EffectiveSplit | clarifai_utils/dataset_export/dataset_export_inputs.py:158 | a truthy explicit split wins; otherwise the captured prefix, possibly absent |
| InputDownloader.ImageName | clarifai_utils/dataset_export/dataset_export_inputs.py:139 | the stored file name is the suffix's last segment plus `.jpg`, and it has no slash |
| InputDownloader.WriteRecord | clarifai_utils/dataset_export/dataset_export_inputs.py:134-143 | a record is skipped exactly when its hosted prefix is empty (`HasHostedMedia`, line 134); a missing `orig` size, a missing split or a failed fetch aborts the run; when all are present the record is written, and the member holds the bytes fetched from `prefix + "/orig/" + suffix` (`ImageUrl`, line 138) |
| InputDownloader.WrittenName | clarifai_utils/dataset_export/dataset_export_inputs.py:139-140 | a written member is named `os.path.join(split, name)`, where `name` is the last segment of the suffix plus `.jpg`; its last segment is that name, and for a split shaped like a `dirname` result (no trailing slash unless it is the root) it sits directly in the split directory |
| InputDownloader.SegmentAfterSlash | clarifai_utils/dataset_export/dataset_export_inputs.py:140 | joining onto a split that ends in a slash still keeps the file name as the last segment |
| InputDownloader.HostedRecords | clarifai_utils/dataset_export/dataset_export_inputs.py:134 | the records that pass the hosted-prefix test (`HasHostedMedia`): no more than the inputs, and every selected record passes it |
| InputDownloader.HostedRecordsComplete | clarifai_utils/dataset_export/dataset_export_inputs.py:134 | every input record that passes the hosted-prefix test is selected |
| InputDownloader.HostedRecordsAppend | clarifai_utils/dataset_export/dataset_export_inputs.py:131-134 | selecting hosted records distributes over concatenation, so they keep the order the iterator yields them in |
| InputDownloader.HostedIsRecord | clarifai_utils/dataset_export/dataset_export_inputs.py:134 | every record with hosted media is one of the input records |
| InputDownloader.WriteAll | clarifai_utils/dataset_export/dataset_export_inputs.py:131-143 | the pass ends without error exactly when every record's step succeeds; it writes at most one member per record with hosted media, and exactly one each when it succeeds |
| InputDownloader.WriteAllMembers | clarifai_utils/dataset_export/dataset_export_inputs.py:132-143 | the k-th member written is the one written for the k-th record with hosted media |
| InputDownloader.WriteAllStep | clarifai_utils/dataset_export/dataset_export_inputs.py:132-143 | a record that is written or skipped lets the pass go on: the pass ends as the pass over the rest does |
| InputDownloader.WriteAllFirstFailure | clarifai_utils/dataset_export/dataset_export_inputs.py:132-142 | the error that ends a pass is the one raised by the first failing record |
| InputDownloader.CheckOutput | clarifai_utils/dataset_export/dataset_export_inputs.py:145-152 | the check passes exactly when the member count equals the counter, and otherwise reports both numbers |
| InputDownloader.Measure | clarifai_utils/dataset_export/dataset_export_inputs.py:127-130 | taking `len` of the source fails only for a reader, and exactly when a shard name is malformed or the count is negative or above `sys.maxsize`; on success only the reader's cache changes |
| InputDownloader.MeasureKeepsItems | clarifai_utils/dataset_export/dataset_export_inputs.py:127-132 | taking `len` first does not change the records the source yields |
| InputDownloader.Download | clarifai_utils/dataset_export/dataset_export_inputs.py:154-159 | a download only appends to the output archive; the counter grows by exactly the number of members appended; a successful run leaves the member count equal to the counter |
| InputDownloader.DownloadCheckIff | clarifai_utils/dataset_export/dataset_export_inputs.py:131-159 | when every record is read and written, the run succeeds exactly when the archive already held as many members as the counter, and it appends one member per record with hosted media |
| InputDownloader.DownloadSucceedsOnlyIfComplete | clarifai_utils/dataset_export/dataset_export_inputs.py:131-159 | no partial success: a run that reports no error had its count accepted, read every shard, wrote or skipped every record without error, and appended exactly one member per record with hosted media |
| InputDownloader.DownloadFailureReports | clarifai_utils/dataset_export/dataset_export_inputs.py:131-159 | members written before an error stay appended to the output and counted; a record's error is reported ahead of a later shard's decode error; a decode error is reported only when every record before it was written or skipped |
| InputDownloader.FreshDownloadWritesHosted | clarifai_utils/dataset_export/dataset_export_inputs.py:105-159 | a new downloader writing a new archive succeeds when nothing fails; the k-th member holds the image fetched for the k-th record with hosted media and is named after its suffix |
| InputDownloader.DownloaderAfterRun | clarifai_utils/dataset_export/dataset_export_inputs.py:127-159 | after a run the downloader measures again, yields the same records and keeps its split prefix |
| InputDownloader.RerunFailsCheck | clarifai_utils/dataset_export/dataset_export_inputs.py:143-152 | a downloader whose counter already equals the number of images its source writes fails the check of a new archive, with the counter at twice the members written |
| InputDownloader.SecondDownloadFailsCheck | clarifai_utils/dataset_export/dataset_export_inputs.py:143-152 | reusing a downloader for a second archive fails the check: the counter is double the new archive's member count |
| InputDownloader.ReaderDownloadUnderSplitDir | clarifai_utils/dataset_export/dataset_export_inputs.py:105-140 | without an explicit split, every member written from an export reader lies in that reader's split directory |
| InputDownloader.NoSplitWritesNothing | clarifai_utils/dataset_export/dataset_export_inputs.py:140 | a plain record list with no explicit split and some record with hosted media fails the run and writes nothing |
| ExportReader.NegativeShardLen | clarifai_utils/dataset_export/dataset_export_inputs.py:63-72 | a fresh reader whose only shard is named `<stem>_n-<k>` counts `-k` records |
| InputDownloader.BadLengthAborts | clarifai_utils/dataset_export/dataset_export_inputs.py:127-131 | a reader count that `len()` rejects (negative, or above `sys.maxsize`) aborts the download with that count, before the output archive is opened |
| InputDownloader.NegativeShardCountAborts | clarifai_utils/dataset_export/dataset_export_inputs.py:127-131 | a reader whose only shard is named `<stem>_n-<k>`, with k > 0, aborts the download with the length error before anything is written |
| InputDownloader.BadShardNameWritesNothing | clarifai_utils/dataset_export/dataset_export_inputs.py:127-131 | a malformed shard name aborts a download from a reader before anything is written, with the counter unchanged |
| Scenario.OpensWithSplitAll | clarifai_utils/dataset_export/dataset_export_inputs.py:52-61 | the two-shard export lists both shards and has split directory `all` |
| Scenario.ShardNamesAnnounce | clarifai_utils/dataset_export/dataset_export_inputs.py:70 | `all/shard0_n2` and `all/shard1_n1` announce 2 and 1 records |
| Scenario.ShardsRead | clarifai_utils/dataset_export/dataset_export_inputs.py:80 | each shard name reads back its own bytes |
| Scenario.ReaderCountsThree | clarifai_utils/dataset_export/dataset_export_inputs.py:63-72 | the example's `len` is 3 |
| Scenario.ReaderYieldsThree | clarifai_utils/dataset_export/dataset_export_inputs.py:74-82 | iteration over the example yields shard 0's two records, then shard 1's one |
| Scenario.WritesUnder | clarifai_utils/dataset_export/dataset_export_inputs.py:134-143 | a record with media at `<src>/<seg>` is written as `<dir>/<seg>.jpg` when `dir` is the split, whatever `src` is |
| Scenario.WriteAllFirst | clarifai_utils/dataset_export/dataset_export_inputs.py:132-143 | the loop writes or skips its first record and then continues with the rest |
| Scenario.WritesTwoOfThree | clarifai_utils/dataset_export/dataset_export_inputs.py:132-143 | of three records, the two with media are written into the split directory, in order, wherever their media is stored, and the other is skipped |
| Scenario.FreshRunFromReader | clarifai_utils/dataset_export/dataset_export_inputs.py:154-159 | a fresh download from a reader whose records all write outputs exactly what the writing loop writes under the reader's split directory, and passes its check |
| Scenario.DownloadWritesTwo | clarifai_utils/dataset_export/dataset_export_inputs.py:154-159 | the example download writes exactly `all/<s1>.jpg` and `all/<s2>.jpg` for media stored at `<src1>/<s1>` and `<src2>/<s2>`, and passes its check |

## Left out

- Downloading the archive over HTTP into a temporary file, and opening a zip from a path (`_download_temp_archive`, the `zipfile.ZipFile` calls): these are network and file I/O. They become the `load` parameter of `Open`, and `None` stands for any exception they raise.
- Protobuf decoding of a shard (`DataBatch.FromString`): this is an external schema. It becomes the `Decoder` parameter, and `None` stands for a decode error.
- Fetching an image, decoding it with PIL and re-encoding it as JPEG (`_save_image_to_archive`): these are network I/O and an image codec. They become the `Fetcher` parameter, which returns the bytes written, or `None` when either step raises.
- The zip file format itself: compression, central directory, and the warning zipfile issues on duplicate names. Archives are member lists.
- `BadZipFile` when the output archive is reopened for the check: this is a failure of the foreign library on a file the run itself wrote. The check is given the member list the run produced.
- An output path that exists but is not a zip archive (zipfile's append mode then appends a new archive after the old bytes): the model starts from a member list.
- `close`, `__enter__` and `__exit__`: these only release the archive handle and the temporary file.
- Progress display (`tqdm`) and `print` output: user-interface side effects. The progress total is modelled only through its one logical consequence: `len` can fail.
- A generator as the downloader's source: it yields its records once, so a second download over the same generator would see none. Sources other than a reader are modelled as a record list.
- `int()` on non-ASCII text (Unicode digits, and Unicode whitespace, which CPython maps to a space before parsing), and Python's limit on the number of digits `int()` accepts: shard names are taken to be ASCII.
- `os.path` is taken to be `posixpath`, as on POSIX hosts. On Windows it is `ntpath`, whose `join` inserts a backslash (`all\x.jpg`) and whose `dirname` understands drive letters and backslashes; that platform is not modelled.
- `sys.maxsize` is taken as 2^63 - 1, its value on 64-bit CPython. Other builds are not modelled.
- InputDownloader.Measure: when `len()` rejects the count, the reader's cache has already been set, and the model drops that update. Any later `len` reaches the same count and fails the same way, so no later call can tell the difference.
- Python run with `-O`, which strips the `assert` statements: the model keeps the asserts as errors.
- The `__main__` block and everything outside `dataset_export_inputs.py`: `tests/test_app.py` needs live credentials, and `tests/dummy_triton_models/visual-embedder/1/inference.py` returns random vectors.

=== FILE: export_reader.dfy ===
/** `DatasetExportReader`: opens an export archive, lists its shard members once,
    derives the split directory from the first member, estimates the record count
    from the shard names, and streams the records of every shard in order.

    The reader is a value: `Len` returns the reader with its cache updated, and
    iteration is a pure function of the archive and the member list, so iterating
    twice over the same reader yields the same stream. */
module ExportReader {
  import opened Results
  import opened PyStr
  import opened PosixPath
  import opened Zip
  import opened Records

  /** Where the archive comes from. */
  datatype Location = Url(url: string) | LocalPath(path: string)

  /** Python truthiness of an optional string argument: given and non-empty. */
  predicate Truthy(s: Option<string>) {
    s.Some? && s.value != ""
  }

  /** The source choice of the constructor: at least one location must be truthy,
      and a truthy URL wins over a local path (giving both is not an error). */
  function ChooseLocation(archiveUrl: Option<string>, localPath: Option<string>): (r: Result<Location>)
    ensures r.Err? <==> !Truthy(archiveUrl) && !Truthy(localPath)
    ensures r.Err? ==> r.error == NoSource
    ensures Truthy(archiveUrl) ==> r == Ok(Url(archiveUrl.value))
    ensures !Truthy(archiveUrl) && Truthy(localPath) ==> r == Ok(LocalPath(localPath.value))
  {
    if Truthy(archiveUrl) then Ok(Url(archiveUrl.value))
    else if Truthy(localPath) then Ok(LocalPath(localPath.value))
    else Err(NoSource)
  }

  function LocationText(loc: Location): string {
    match loc
    case Url(u) => u
    case LocalPath(p) => p
  }

  /** The reader's state: the open archive, the member list read at construction
      (`None` only before it is read), the cached record count (0 = not cached)
      and the split directory. */
  datatype Reader = Reader(archive: Archive, names: Option<seq<string>>, inputCount: int, splitDir: string)

  /** The constructor. `load` stands for downloading the URL into a temporary file
      or opening the local path, and opening the result as a zip archive; `None`
      where that raises. */
  function Open(archiveUrl: Option<string>, localPath: Option<string>, load: Location -> Option<Archive>): (r: Result<Reader>)
    ensures r.Ok? <==> ChooseLocation(archiveUrl, localPath).Ok? && load(ChooseLocation(archiveUrl, localPath).value).Some?
    ensures r.Ok? ==>
      var a := load(ChooseLocation(archiveUrl, localPath).value).value;
      && r.value.archive == a
      && r.value.names == Some(NameList(a))
      && r.value.inputCount == 0
      && DirShaped(r.value.splitDir)
      && (|a| == 0 ==> r.value.splitDir == "")
      && (|a| > 0 ==> r.value.splitDir == Dirname(a[0].name) && r.value.splitDir == a[0].name[..|r.value.splitDir|])
  {
    var loc :- ChooseLocation(archiveUrl, localPath);
    match load(loc)
    case None => Err(LoadFailed(LocationText(loc)))
    case Some(a) =>
      var names := NameList(a);
      Ok(Reader(a, Some(names), 0, if |names| > 0 then Dirname(names[0]) else ""))
  }

  // ---------------------------------------------------------------------------
  // Record count from shard names

  /** `int(name.split('_n')[-1])`: the record count a shard name announces. */
  function ShardCount(name: string): Option<int> {
    ParseInt(LastPiece(name, "_n"))
  }

  /** A shard named `<stem>_n<k>` announces `k` records, whatever the stem holds
      (including other `_n`s); one named `<stem>_n-<k>` announces `-k`. */
  lemma ShardCountOfName(stem: string, k: nat)
    ensures ShardCount(stem + "_n" + Decimal(k)) == Some(k)
    ensures ShardCount(stem + "_n-" + Decimal(k)).Some?
    ensures ShardCount(stem + "_n-" + Decimal(k)).value == -(k as int)
  {
    var digits := Decimal(k);
    assert forall i :: 0 <= i < |digits| ==> digits[i] != "_n"[0];
    LastPieceAfterSep(stem, "_n", digits);
    var negative := "-" + digits;
    assert forall i :: 0 <= i < |negative| ==> negative[i] != "_n"[0] by {
      assert forall i :: 1 <= i < |negative| ==> negative[i] == digits[i - 1];
    }
    assert stem + "_n-" + digits == stem + "_n" + negative;
    LastPieceAfterSep(stem, "_n", negative);
    ParseDecimal(k);
  }

  /** The counting loop of `__len__`: the sum of the announced counts, or the error
      for the first name whose tail is not an integer (`ShardTotalFirstBad`). */
  function ShardTotal(names: seq<string>): (r: Result<int>)
    ensures r.Ok? <==> forall i :: 0 <= i < |names| ==> ShardCount(names[i]).Some?
    decreases |names|
  {
    if |names| == 0 then Ok(0)
    else match ShardCount(names[0])
      case None => Err(BadShardName(names[0]))
      case Some(c) =>
        var rest := ShardTotal(names[1..]);
        assert forall i :: 1 <= i < |names| ==> names[1..][i - 1] == names[i];
        if rest.Err? then Err(rest.error) else Ok(c + rest.value)
  }

  /** A failing count names the first shard whose tail is not an integer. */
  lemma {:induction false} ShardTotalFirstBad(names: seq<string>)
    requires ShardTotal(names).Err?
    ensures exists i :: 0 <= i < |names| && ShardCount(names[i]).None?
                        && ShardTotal(names).error == BadShardName(names[i])
                        && forall j :: 0 <= j < i ==> ShardCount(names[j]).Some?
    decreases |names|
  {
    if ShardCount(names[0]).Some? {
      var tail := names[1..];
      ShardTotalStep(names, ShardCount(names[0]).value);
      ShardTotalFirstBad(tail);
      var i :| 0 <= i < |tail| && ShardCount(tail[i]).None?
               && ShardTotal(tail).error == BadShardName(tail[i])
               && forall j :: 0 <= j < i ==> ShardCount(tail[j]).Some?;
      assert forall j :: 1 <= j < i + 1 ==> names[j] == tail[j - 1];
      assert names[i + 1] == tail[i];
    }
  }

  /** `len(reader)`: the cached count when it is non-zero; otherwise the sum over the
      member list, stored in the cache. Only the cache changes. */
  function Len(r: Reader): (res: Result<(int, Reader)>)
    ensures res.Ok? ==> res.value.1 == r.(inputCount := res.value.0)
    ensures res.Err? <==> r.inputCount == 0 && r.names.Some? && ShardTotal(r.names.value).Err?
    ensures r.inputCount == 0 && r.names.None? ==> res == Ok((0, r))
    ensures r.inputCount == 0 && r.names.Some? && res.Ok? ==> ShardTotal(r.names.value).Ok? && ShardTotal(r.names.value).value == res.value.0
  {
    if r.inputCount != 0 then Ok((r.inputCount, r))
    else match r.names
      case None => Ok((0, r))
      case Some(ns) =>
        match ShardTotal(ns)
        case Err(e) => Err(e)
        case Ok(c) => Ok((c, r.(inputCount := c)))
  }

  /** A fresh reader whose only shard is named `<stem>_n-<k>` counts `-k`. */
  lemma NegativeShardLen(r: Reader, stem: string, k: nat)
    requires r.inputCount == 0 && r.names == Some([stem + "_n-" + Decimal(k)])
    ensures Len(r).Ok? && Len(r).value.0 == -(k as int)
  {
    var names := r.names.value;
    ShardCountOfName(stem, k);
    ShardTotalStep(names, -(k as int));
    assert names[1..] == [];
  }

  /** Once the cache holds a non-zero count, `len` returns it without looking at
      the member list at all. */
  lemma LenCached(r: Reader, names: Option<seq<string>>)
    requires r.inputCount != 0
    ensures Len(r.(names := names)) == Ok((r.inputCount, r.(names := names)))
  {
  }

  /** A second `len` returns what the first returned and changes nothing more; a
      zero result leaves the reader as it was, so the next call counts again. */
  lemma LenIdempotent(r: Reader)
    requires Len(r).Ok?
    ensures Len(Len(r).value.1) == Len(r)
    ensures Len(r).value.0 == 0 ==> Len(r).value.1 == r
  {
  }

  // ---------------------------------------------------------------------------
  // Record iteration

  /** What consuming the iterator yields: the records produced, then either normal
      exhaustion (`None`) or the error that stopped it. */
  datatype Stream = Stream(items: seq<Data>, failure: Option<Error>)

  /** The shard `name` can be read from the archive and decoded. */
  predicate Decodes(a: Archive, name: string, decode: Decoder) {
    Read(a, name).Some? && decode(Read(a, name).value).Some?
  }

  function Batch(a: Archive, name: string, decode: Decoder): seq<Data>
    requires Decodes(a, name, decode)
  {
    decode(Read(a, name).value).value
  }

  /** The batches of the listed shards, one per name. */
  function Batches(a: Archive, names: seq<string>, decode: Decoder): (bs: seq<seq<Data>>)
    requires forall i :: 0 <= i < |names| ==> Decodes(a, names[i], decode)
    ensures |bs| == |names|
    ensures forall i :: 0 <= i < |names| ==> bs[i] == Batch(a, names[i], decode)
  {
    seq(|names|, i requires 0 <= i < |names| => Batch(a, names[i], decode))
  }

  function Concat<T>(xss: seq<seq<T>>): seq<T>
    decreases |xss|
  {
    if |xss| == 0 then [] else xss[0] + Concat(xss[1..])
  }

  /** The error that reading or decoding shard `name` raises. */
  function ShardError(a: Archive, name: string): Error {
    if Read(a, name).None? then MissingMember(name) else CorruptShard(name)
  }

  /** The generator body of `__iter__` over a member list: read and decode one shard
      at a time, yield its records in order, stop at the first shard that fails.
      What a complete pass yields is stated by `ShardsYieldBatches`. */
  function Shards(a: Archive, names: seq<string>, decode: Decoder): (s: Stream)
    ensures s.failure.None? <==> forall i :: 0 <= i < |names| ==> Decodes(a, names[i], decode)
    decreases |names|
  {
    if |names| == 0 then Stream([], None)
    else match Read(a, names[0])
      case None => Stream([], Some(MissingMember(names[0])))
      case Some(bytes) =>
        match decode(bytes)
        case None => Stream([], Some(CorruptShard(names[0])))
        case Some(batch) =>
          var rest := Shards(a, names[1..], decode);
          assert forall i :: 1 <= i < |names| ==> names[1..][i - 1] == names[i];
          Stream(batch + rest.items, rest.failure)
  }

  /** A pass that runs to the end yields the batches of the listed shards, in
      member-list order. */
  lemma {:induction false} ShardsYieldBatches(a: Archive, names: seq<string>, decode: Decoder)
    requires forall i :: 0 <= i < |names| ==> Decodes(a, names[i], decode)
    ensures Shards(a, names, decode).items == Concat(Batches(a, names, decode))
    decreases |names|
  {
    if |names| > 0 {
      assert forall i :: 1 <= i < |names| ==> names[1..][i - 1] == names[i];
      ShardsYieldBatches(a, names[1..], decode);
      assert Batches(a, names, decode)[1..] == Batches(a, names[1..], decode);
    }
  }

  /** Iterating a member list that is the concatenation of two lists yields the first
      list's records, then (if the first list did not fail) the second's. */
  lemma {:induction false} ShardsAppend(a: Archive, xs: seq<string>, ys: seq<string>, decode: Decoder)
    ensures Shards(a, xs, decode).failure.Some? ==> Shards(a, xs + ys, decode) == Shards(a, xs, decode)
    ensures Shards(a, xs, decode).failure.None? ==>
      Shards(a, xs + ys, decode) == Stream(Shards(a, xs, decode).items + Shards(a, ys, decode).items,
                                           Shards(a, ys, decode).failure)
    decreases |xs|
  {
    if |xs| == 0 {
      assert xs + ys == ys;
    } else {
      assert (xs + ys)[0] == xs[0];
      assert (xs + ys)[1..] == xs[1..] + ys;
      ShardsAppend(a, xs[1..], ys, decode);
      if Decodes(a, xs[0], decode) {
        var batch := Batch(a, xs[0], decode);
        var rest := Shards(a, xs[1..], decode);
        if rest.failure.None? {
          assert batch + (rest.items + Shards(a, ys, decode).items)
              == (batch + rest.items) + Shards(a, ys, decode).items;
        }
      }
    }
  }

  /** Iteration stops at the first shard that cannot be read or decoded, reporting
      that shard, after yielding every record of the shards before it. */
  lemma ShardsStopAtFirstFailure(a: Archive, names: seq<string>, decode: Decoder, k: nat)
    requires k < |names|
    requires forall j :: 0 <= j < k ==> Decodes(a, names[j], decode)
    requires !Decodes(a, names[k], decode)
    ensures Shards(a, names, decode) == Stream(Concat(Batches(a, names[..k], decode)), Some(ShardError(a, names[k])))
  {
    assert names == names[..k] + names[k..];
    ShardsAppend(a, names[..k], names[k..], decode);
    ShardsYieldBatches(a, names[..k], decode);
    assert names[k..][0] == names[k];
  }

  /** `iter(reader)`: nothing without a member list; otherwise the listed shards'
      records, and when every shard decodes, exactly their batches in list order. */
  function Iterate(r: Reader, decode: Decoder): (s: Stream)
    ensures r.names.None? ==> s == Stream([], None)
    ensures r.names.Some? ==>
      (s.failure.None? <==> forall i :: 0 <= i < |r.names.value| ==> Decodes(r.archive, r.names.value[i], decode))
    ensures r.names.Some? && s.failure.None? ==>
      s.items == Concat(Batches(r.archive, r.names.value, decode))
  {
    match r.names
    case None => Stream([], None)
    case Some(ns) =>
      var s := Shards(r.archive, ns, decode);
      if s.failure.None? then ShardsYieldBatches(r.archive, ns, decode); s else s
  }

  // ---------------------------------------------------------------------------
  // The count estimate agrees with the records

  /** Every listed shard decodes and its name announces the number of records it
      holds. */
  predicate HonestNames(a: Archive, names: seq<string>, decode: Decoder) {
    forall i :: 0 <= i < |names| ==>
      Decodes(a, names[i], decode) && ShardCount(names[i]) == Some(|Batch(a, names[i], decode)|)
  }

  lemma {:induction false} ShardTotalCountsRecords(a: Archive, names: seq<string>, decode: Decoder)
    requires HonestNames(a, names, decode)
    ensures Shards(a, names, decode).failure.None?
    ensures ShardTotal(names).Ok? && ShardTotal(names).value == |Shards(a, names, decode).items|
    decreases |names|
  {
    if |names| > 0 {
      HonestTail(a, names, decode);
      ShardTotalCountsRecords(a, names[1..], decode);
      ShardsStep(a, names, decode);
      ShardTotalStep(names, |Batch(a, names[0], decode)|);
    }
  }

  /** The shards after the first of an honest list are honest too, and the first
      one decodes to as many records as its name announces. */
  lemma HonestTail(a: Archive, names: seq<string>, decode: Decoder)
    requires |names| > 0 && HonestNames(a, names, decode)
    ensures Decodes(a, names[0], decode) && ShardCount(names[0]) == Some(|Batch(a, names[0], decode)|)
    ensures HonestNames(a, names[1..], decode)
  {
    assert forall i :: 1 <= i < |names| ==> names[1..][i - 1] == names[i];
  }

  /** One step of the counting loop: a first name announcing `c` records adds `c`
      to the count of the rest. */
  lemma ShardTotalStep(names: seq<string>, c: int)
    requires |names| > 0 && ShardCount(names[0]) == Some(c)
    ensures ShardTotal(names[1..]).Ok? ==> ShardTotal(names).Ok? && ShardTotal(names).value == c + ShardTotal(names[1..]).value
    ensures ShardTotal(names[1..]).Err? ==> ShardTotal(names) == Err(ShardTotal(names[1..]).error)
  {
  }

  /** One step of the generator: a first shard that decodes yields its batch, then
      whatever the remaining shards yield. */
  lemma ShardsStep(a: Archive, names: seq<string>, decode: Decoder)
    requires |names| > 0 && Decodes(a, names[0], decode)
    ensures var rest := Shards(a, names[1..], decode);
      Shards(a, names, decode) == Stream(Batch(a, names[0], decode) + rest.items, rest.failure)
  {
  }

  /** On a freshly opened reader whose shard names are honest, `len` equals the number
      of records iteration yields, and iteration runs to the end. */
  lemma LenMatchesIteration(archiveUrl: Option<string>, localPath: Option<string>,
                            load: Location -> Option<Archive>, decode: Decoder)
    requires Open(archiveUrl, localPath, load).Ok?
    requires var a := Open(archiveUrl, localPath, load).value.archive; HonestNames(a, NameList(a), decode)
    ensures var r := Open(archiveUrl, localPath, load).value;
      && Iterate(r, decode).failure.None?
      && Len(r).Ok? && Len(r).value.0 == |Iterate(r, decode).items|
  {
    var r := Open(archiveUrl, localPath, load).value;
    ShardTotalCountsRecords(r.archive, NameList(r.archive), decode);
  }
}

=== FILE: input_downloader.dfy ===
/** `DataInputDownloader`: walks a record source, fetches the original-size image
    of every record that references hosted media, appends it to an output zip
    under `<split>/<name>.jpg`, counts what it wrote, and finally checks the output
    archive's member count against that counter. */
module InputDownloader {
  import opened Results
  import opened PosixPath
  import opened Zip
  import opened Records
  import ExportReader

  /** What the downloader iterates: an export reader, or any other sequence of
      records (a list or a generator). */
  datatype Source = FromReader(reader: ExportReader.Reader) | FromRecords(records: seq<Data>)

  /** The downloader's state. `numInputs` is never reset: it accumulates over
      successive downloads. */
  datatype Downloader = Downloader(source: Source, splitPrefix: Option<string>, numInputs: nat)

  /** The constructor: a split prefix is captured only from an export reader. */
  function NewDownloader(source: Source): (d: Downloader)
    ensures d.source == source && d.numInputs == 0
    ensures d.splitPrefix.Some? <==> source.FromReader?
    ensures source.FromReader? ==> d.splitPrefix == Some(source.reader.splitDir)
  {
    match source
    case FromReader(r) => Downloader(source, Some(r.splitDir), 0)
    case FromRecords(_) => Downloader(source, None, 0)
  }

  /** `split or self.split_prefix`: a truthy explicit split wins, otherwise the
      captured prefix, which may be absent. */
  function EffectiveSplit(split: Option<string>, splitPrefix: Option<string>): (r: Option<string>)
    ensures ExportReader.Truthy(split) ==> r == split
    ensures !ExportReader.Truthy(split) ==> r == splitPrefix
  {
    if ExportReader.Truthy(split) then split else splitPrefix
  }

  /** Downloading a URL and re-encoding the image as JPEG: the bytes written to the
      output, or `None` where the HTTP request or the image decoder raises. */
  type Fetcher = string -> Option<Bytes>

  /** The original-size URL of hosted media. */
  function ImageUrl(h: Hosted): string {
    h.prefix + "/orig/" + h.suffix
  }

  /** The file name an image is stored under: the suffix's last segment plus ".jpg". */
  function ImageName(h: Hosted): (name: string)
    ensures '/' !in name
    ensures name == LastSegment(h.suffix) + ".jpg"
  {
    LastSegment(h.suffix) + ".jpg"
  }

  /** One iteration of the writing loop: `Ok(None)` for a record that is skipped,
      `Ok(Some(m))` for the member written, or the error that aborts the run. Where
      the member lands is stated by `WrittenName`. */
  function WriteRecord(d: Data, split: Option<string>, fetch: Fetcher): (r: Result<Option<Member>>)
    ensures r == Ok(None) <==> !HasHostedMedia(d)
    ensures HasHostedMedia(d) && "orig" !in d.image.hosted.sizes ==>
              r == Err(MissingOrig(d.image.hosted.suffix))
    ensures HasHostedMedia(d) && "orig" in d.image.hosted.sizes && split.None? ==> r == Err(NoSplit)
    ensures (HasHostedMedia(d) && "orig" in d.image.hosted.sizes && split.Some?
             && fetch(ImageUrl(d.image.hosted)).None?) ==> r == Err(FetchFailed(ImageUrl(d.image.hosted)))
    ensures (HasHostedMedia(d) && "orig" in d.image.hosted.sizes && split.Some?
             && fetch(ImageUrl(d.image.hosted)).Some?) ==> r.Ok? && r.value.Some?
    ensures r.Ok? && r.value.Some? ==>
      && "orig" in d.image.hosted.sizes
      && split.Some?
      && fetch(d.image.hosted.prefix + "/orig/" + d.image.hosted.suffix) == Some(r.value.value.data)
  {
    var h := d.image.hosted;
    if !HasHostedMedia(d) then Ok(None)
    else if "orig" !in h.sizes then Err(MissingOrig(h.suffix))
    else
      var url := ImageUrl(h);
      match split
      case None => Err(NoSplit)
      case Some(dir) =>
        match fetch(url)
        case None => Err(FetchFailed(url))
        case Some(bytes) => Ok(Some(Member(PathJoin(dir, ImageName(h)), bytes)))
  }

  /** A written member is named by joining the split directory and the last
      segment of the media suffix with ".jpg" appended; for a split shaped like a
      `dirname` result, the member sits directly in that directory. */
  lemma WrittenName(d: Data, split: Option<string>, fetch: Fetcher)
    requires WriteRecord(d, split, fetch).Ok? && WriteRecord(d, split, fetch).value.Some?
    ensures var name := WriteRecord(d, split, fetch).value.value.name;
      && name == PathJoin(split.value, ImageName(d.image.hosted))
      && LastSegment(name) == LastSegment(d.image.hosted.suffix) + ".jpg"
      && (DirShaped(split.value) ==> Dirname(name) == split.value)
  {
    var dir := split.value;
    var name := ImageName(d.image.hosted);
    if DirShaped(dir) {
      JoinSplitsBack(dir, name);
    } else {
      SegmentAfterSlash(dir, name);
    }
  }

  /** A directory that ends in a slash still joins to `dir + name`, whose last
      segment is `name`. */
  lemma SegmentAfterSlash(dir: string, name: string)
    requires |dir| > 0 && dir[|dir| - 1] == '/'
    requires '/' !in name
    ensures LastSegment(PathJoin(dir, name)) == name
  {
    assert forall i :: 0 <= i < |name| ==> name[i] != "/"[0];
    assert PathJoin(dir, name) == dir[..|dir| - 1] + "/" + name;
    PyStr.LastPieceAfterSep(dir[..|dir| - 1], "/", name);
  }

  /** The records that reference hosted media, in order. */
  function HostedRecords(items: seq<Data>): (hs: seq<Data>)
    ensures |hs| <= |items|
    ensures forall k :: 0 <= k < |hs| ==> HasHostedMedia(hs[k])
    decreases |items|
  {
    if |items| == 0 then []
    else if HasHostedMedia(items[0]) then [items[0]] + HostedRecords(items[1..])
    else HostedRecords(items[1..])
  }

  /** Every record with hosted media is selected. */
  lemma {:induction false} HostedRecordsComplete(items: seq<Data>)
    ensures forall i :: 0 <= i < |items| && HasHostedMedia(items[i]) ==> items[i] in HostedRecords(items)
    decreases |items|
  {
    if |items| > 0 {
      HostedRecordsComplete(items[1..]);
      assert forall i :: 1 <= i < |items| ==> items[i] == items[1..][i - 1];
    }
  }

  /** Selecting hosted records distributes over concatenation: the records of
      `xs` come first, in their order, then those of `ys`. */
  lemma {:induction false} HostedRecordsAppend(xs: seq<Data>, ys: seq<Data>)
    ensures HostedRecords(xs + ys) == HostedRecords(xs) + HostedRecords(ys)
    decreases |xs|
  {
    if |xs| > 0 {
      assert (xs + ys)[0] == xs[0];
      assert (xs + ys)[1..] == xs[1..] + ys;
      HostedRecordsAppend(xs[1..], ys);
    } else {
      assert xs + ys == ys;
    }
  }

  /** The members a pass over the records appended, then how the pass ended. */
  datatype Writes = Writes(members: seq<Member>, failure: Option<Error>)

  /** The writing loop of `_write_image_archive` over the records the iterator
      yields: it either consumes every record or stops at the first error, having
      written at most one member per record with hosted media (`WriteAllMembers`
      says which). */
  function WriteAll(items: seq<Data>, split: Option<string>, fetch: Fetcher): (w: Writes)
    ensures w.failure.None? <==> forall i :: 0 <= i < |items| ==> WriteRecord(items[i], split, fetch).Ok?
    ensures w.failure.None? ==> |w.members| == |HostedRecords(items)|
    ensures |w.members| <= |HostedRecords(items)|
    decreases |items|
  {
    if |items| == 0 then Writes([], None)
    else
      var rest := WriteAll(items[1..], split, fetch);
      assert forall i :: 1 <= i < |items| ==> items[1..][i - 1] == items[i];
      match WriteRecord(items[0], split, fetch)
      case Err(e) => Writes([], Some(e))
      case Ok(None) => rest
      case Ok(Some(m)) => Writes([m] + rest.members, rest.failure)
  }

  /** The k-th member a pass writes is the one written for the k-th record with
      hosted media. */
  lemma {:induction false} WriteAllMembers(items: seq<Data>, split: Option<string>, fetch: Fetcher)
    ensures MembersFromHosted(items, split, fetch)
    decreases |items|
  {
    if |items| > 0 {
      WriteAllMembers(items[1..], split, fetch);
      var r := WriteRecord(items[0], split, fetch);
      if r.Ok? && r.value.Some? {
        MembersAfterWrite(items, split, fetch);
      } else if r.Ok? {
        MembersAfterSkip(items, split, fetch);
      }
    }
  }

  predicate MembersFromHosted(items: seq<Data>, split: Option<string>, fetch: Fetcher) {
    var w := WriteAll(items, split, fetch);
    forall k :: 0 <= k < |w.members| ==>
      WriteRecord(HostedRecords(items)[k], split, fetch) == Ok(Some(w.members[k]))
  }

  lemma MembersAfterWrite(items: seq<Data>, split: Option<string>, fetch: Fetcher)
    requires |items| > 0
    requires WriteRecord(items[0], split, fetch).Ok? && WriteRecord(items[0], split, fetch).value.Some?
    requires MembersFromHosted(items[1..], split, fetch)
    ensures MembersFromHosted(items, split, fetch)
  {
    var tail := items[1..];
    var m := WriteRecord(items[0], split, fetch).value.value;
    var rest := WriteAll(tail, split, fetch);
    assert WriteAll(items, split, fetch).members == [m] + rest.members;
    assert HostedRecords(items) == [items[0]] + HostedRecords(tail);
    WrittenInFront(items[0], HostedRecords(tail), m, rest.members, split, fetch);
  }

  /** Putting a written record in front of records that each wrote the matching
      member keeps the correspondence. */
  lemma WrittenInFront(h: Data, hs: seq<Data>, m: Member, ms: seq<Member>, split: Option<string>, fetch: Fetcher)
    requires WriteRecord(h, split, fetch) == Ok(Some(m))
    requires |ms| <= |hs|
    requires forall k :: 0 <= k < |ms| ==> WriteRecord(hs[k], split, fetch) == Ok(Some(ms[k]))
    ensures forall k :: 0 <= k < |ms| + 1 ==> WriteRecord(([h] + hs)[k], split, fetch) == Ok(Some(([m] + ms)[k]))
  {
    forall k | 0 <= k < |ms| + 1
      ensures WriteRecord(([h] + hs)[k], split, fetch) == Ok(Some(([m] + ms)[k]))
    {
      if k > 0 {
        assert ([h] + hs)[k] == hs[k - 1];
        assert ([m] + ms)[k] == ms[k - 1];
      }
    }
  }

  lemma MembersAfterSkip(items: seq<Data>, split: Option<string>, fetch: Fetcher)
    requires |items| > 0
    requires WriteRecord(items[0], split, fetch) == Ok(None)
    requires MembersFromHosted(items[1..], split, fetch)
    ensures MembersFromHosted(items, split, fetch)
  {
    assert WriteAll(items, split, fetch) == WriteAll(items[1..], split, fetch);
    assert HostedRecords(items) == HostedRecords(items[1..]);
  }

  /** The error that ends a pass is the one raised by the first record that fails. */
  lemma {:induction false} WriteAllFirstFailure(items: seq<Data>, split: Option<string>, fetch: Fetcher)
    requires WriteAll(items, split, fetch).failure.Some?
    ensures exists i :: (0 <= i < |items| && WriteRecord(items[i], split, fetch).Err?
              && WriteAll(items, split, fetch).failure == Some(WriteRecord(items[i], split, fetch).error)
              && forall j :: 0 <= j < i ==> WriteRecord(items[j], split, fetch).Ok?)
    decreases |items|
  {
    if WriteRecord(items[0], split, fetch).Ok? {
      WriteAllStep(items, split, fetch);
      var tail := items[1..];
      WriteAllFirstFailure(tail, split, fetch);
      var i :| 0 <= i < |tail| && WriteRecord(tail[i], split, fetch).Err?
               && WriteAll(tail, split, fetch).failure == Some(WriteRecord(tail[i], split, fetch).error)
               && forall j :: 0 <= j < i ==> WriteRecord(tail[j], split, fetch).Ok?;
      assert forall j :: 1 <= j < i + 1 ==> items[j] == tail[j - 1];
      assert items[i + 1] == tail[i];
    } else {
      assert WriteAll(items, split, fetch).failure == Some(WriteRecord(items[0], split, fetch).error);
    }
  }

  /** A record that writes or is skipped lets the pass go on with the rest. */
  lemma WriteAllStep(items: seq<Data>, split: Option<string>, fetch: Fetcher)
    requires |items| > 0 && WriteRecord(items[0], split, fetch).Ok?
    ensures WriteAll(items, split, fetch).failure == WriteAll(items[1..], split, fetch).failure
  {
  }

  /** The final integrity check: the output archive must list exactly as many
      members as the counter says were written. */
  function CheckOutput(names: seq<string>, numInputs: nat): (r: Option<Error>)
    ensures r.None? <==> |names| == numInputs
    ensures r.Some? ==> r.value == CountMismatch(|names|, numInputs)
  {
    if |names| == numInputs then None else Some(CountMismatch(|names|, numInputs))
  }

  /** `sys.maxsize` on a 64-bit CPython: the largest count `len()` returns. */
  const MaxSize: int := 0x7FFF_FFFF_FFFF_FFFF

  /** `len(self.data_iterator)` taken for the progress total. Only an export reader
      can fail here: its count loop raises on a malformed name, and `len()` itself
      rejects a negative count (ValueError) or one above `sys.maxsize`
      (OverflowError); only TypeError is caught, so both abort the download. On
      success the reader comes back with its count cached. */
  function Measure(source: Source): (r: Result<Source>)
    ensures r.Ok? ==> r.value.FromReader? == source.FromReader?
    ensures source.FromRecords? ==> r == Ok(source)
    ensures source.FromReader? ==>
              (r.Err? <==> ExportReader.Len(source.reader).Err?
                           || !(0 <= ExportReader.Len(source.reader).value.0 <= MaxSize))
    ensures source.FromReader? && ExportReader.Len(source.reader).Ok? && r.Err? ==>
              r.error == BadLength(ExportReader.Len(source.reader).value.0)
    ensures source.FromReader? && r.Ok? ==>
              r.value.reader == source.reader.(inputCount := r.value.reader.inputCount)
  {
    match source
    case FromRecords(_) => Ok(source)
    case FromReader(reader) =>
      match ExportReader.Len(reader)
      case Err(e) => Err(e)
      case Ok(counted) =>
        if 0 <= counted.0 <= MaxSize then Ok(FromReader(counted.1)) else Err(BadLength(counted.0))
  }

  /** The records a source yields when iterated. */
  function Items(source: Source, decode: Decoder): ExportReader.Stream {
    match source
    case FromReader(r) => ExportReader.Iterate(r, decode)
    case FromRecords(rs) => ExportReader.Stream(rs, None)
  }

  /** The result of a download: the downloader afterwards, the output archive's
      members afterwards, and the error that ended the run, if any. */
  datatype Run = Run(downloader: Downloader, output: Archive, failure: Option<Error>)

  /** `download_image_archive(save_path, split)`. `output` holds the members already
      in the archive at `save_path` (it is opened for appending; empty when the file
      does not exist). Members written before an error stay in the output. */
  function Download(d: Downloader, output: Archive, split: Option<string>,
                    decode: Decoder, fetch: Fetcher): (run: Run)
    ensures |run.output| >= |output| && run.output[..|output|] == output
    ensures run.downloader.numInputs == d.numInputs + (|run.output| - |output|)
    ensures run.downloader.splitPrefix == d.splitPrefix
    ensures run.failure.None? ==> |run.output| == run.downloader.numInputs
  {
    match Measure(d.source)
    case Err(e) => Run(d, output, Some(e))
    case Ok(source) =>
      var stream := Items(source, decode);
      var w := WriteAll(stream.items, EffectiveSplit(split, d.splitPrefix), fetch);
      var after := d.(source := source, numInputs := d.numInputs + |w.members|);
      var out := output + w.members;
      assert out[..|output|] == output;
      var failure :=
        if w.failure.Some? then w.failure
        else if stream.failure.Some? then stream.failure
        else CheckOutput(NameList(out), after.numInputs);
      Run(after, out, failure)
  }

  // ---------------------------------------------------------------------------
  // Properties of a whole run

  /** Measuring a reader does not change what it yields. */
  lemma MeasureKeepsItems(source: Source, decode: Decoder)
    requires Measure(source).Ok?
    ensures Items(Measure(source).value, decode) == Items(source, decode)
  {
  }

  /** When every record is read and written without error, the integrity check
      passes exactly when the archive held as many members before the run as the
      counter did; the run then appended one member per record with hosted media. */
  lemma DownloadCheckIff(d: Downloader, output: Archive, split: Option<string>, decode: Decoder, fetch: Fetcher)
    requires Measure(d.source).Ok?
    requires Items(d.source, decode).failure.None?
    requires var items := Items(d.source, decode).items;
             forall i :: 0 <= i < |items| ==> WriteRecord(items[i], EffectiveSplit(split, d.splitPrefix), fetch).Ok?
    ensures var run := Download(d, output, split, decode, fetch);
      && (run.failure.None? <==> |output| == d.numInputs)
      && (run.failure.Some? ==> run.failure == Some(CountMismatch(|run.output|, run.downloader.numInputs)))
      && |run.output| - |output| == |HostedRecords(Items(d.source, decode).items)|
  {
    MeasureKeepsItems(d.source, decode);
  }

  /** A run succeeds only when nothing was left out: the count was accepted, every
      shard decoded, every record was written or skipped without error, and one
      member was appended per record with hosted media. */
  lemma DownloadSucceedsOnlyIfComplete(d: Downloader, output: Archive, split: Option<string>,
                                       decode: Decoder, fetch: Fetcher)
    requires Download(d, output, split, decode, fetch).failure.None?
    ensures Measure(d.source).Ok?
    ensures Items(d.source, decode).failure.None?
    ensures var items := Items(d.source, decode).items;
            forall i :: 0 <= i < |items| ==> WriteRecord(items[i], EffectiveSplit(split, d.splitPrefix), fetch).Ok?
    ensures var run := Download(d, output, split, decode, fetch);
            |run.output| - |output| == |HostedRecords(Items(d.source, decode).items)|
  {
    MeasureKeepsItems(d.source, decode);
  }

  /** What a run reports and leaves behind: the members written before any error
      stay appended to the output (and counted); a record's error is reported ahead
      of a shard decode error, since the records before a bad shard are written
      before iteration reaches it; a decode error is reported only when every
      record yielded before it was written or skipped. */
  lemma DownloadFailureReports(d: Downloader, output: Archive, split: Option<string>,
                               decode: Decoder, fetch: Fetcher)
    requires Measure(d.source).Ok?
    ensures var stream := Items(d.source, decode);
            var w := WriteAll(stream.items, EffectiveSplit(split, d.splitPrefix), fetch);
            var run := Download(d, output, split, decode, fetch);
      && run.output == output + w.members
      && run.downloader.numInputs == d.numInputs + |w.members|
      && (w.failure.Some? ==> run.failure == w.failure)
      && (w.failure.None? && stream.failure.Some? ==> run.failure == stream.failure)
  {
    MeasureKeepsItems(d.source, decode);
  }

  /** A new downloader writing to a new archive: when nothing fails, the run
      succeeds, and the output holds one member per record with hosted media, each
      fetched from its original-size URL and named after its suffix. */
  lemma FreshDownloadWritesHosted(source: Source, split: Option<string>, decode: Decoder, fetch: Fetcher)
    requires Measure(source).Ok?
    requires Items(source, decode).failure.None?
    requires var items := Items(source, decode).items;
             forall i :: 0 <= i < |items| ==> WriteRecord(items[i], EffectiveSplit(split, NewDownloader(source).splitPrefix), fetch).Ok?
    ensures var run := Download(NewDownloader(source), [], split, decode, fetch);
            var hosted := HostedRecords(Items(source, decode).items);
      && run.failure.None?
      && |run.output| == |hosted| == run.downloader.numInputs
      && forall k :: 0 <= k < |hosted| ==>
           && fetch(ImageUrl(hosted[k].image.hosted)) == Some(run.output[k].data)
           && LastSegment(run.output[k].name) == ImageName(hosted[k].image.hosted)
  {
    var d := NewDownloader(source);
    DownloadCheckIff(d, [], split, decode, fetch);
    MeasureKeepsItems(source, decode);
    var items := Items(source, decode).items;
    var eff := EffectiveSplit(split, d.splitPrefix);
    var w := WriteAll(items, eff, fetch);
    assert Download(d, [], split, decode, fetch).output == [] + w.members;
    var hosted := HostedRecords(items);
    WriteAllMembers(items, eff, fetch);
    forall k | 0 <= k < |hosted|
      ensures fetch(ImageUrl(hosted[k].image.hosted)) == Some(w.members[k].data)
      ensures LastSegment(w.members[k].name) == ImageName(hosted[k].image.hosted)
    {
      WrittenName(hosted[k], eff, fetch);
    }
  }

  /** The counter is never reset: downloading a second time with the same downloader
      into a new archive fails the integrity check, although every image was
      written, because the counter still includes the first run's images. */
  lemma SecondDownloadFailsCheck(source: Source, split: Option<string>, decode: Decoder, fetch: Fetcher)
    requires Measure(source).Ok?
    requires Items(source, decode).failure.None?
    requires var items := Items(source, decode).items;
             forall i :: 0 <= i < |items| ==> WriteRecord(items[i], EffectiveSplit(split, NewDownloader(source).splitPrefix), fetch).Ok?
    requires |HostedRecords(Items(source, decode).items)| > 0
    ensures var first := Download(NewDownloader(source), [], split, decode, fetch);
            var second := Download(first.downloader, [], split, decode, fetch);
      && first.failure.None?
      && second.failure == Some(CountMismatch(|second.output|, 2 * |first.output|))
  {
    FreshDownloadWritesHosted(source, split, decode, fetch);
    var first := Download(NewDownloader(source), [], split, decode, fetch);
    var d := first.downloader;
    DownloaderAfterRun(source, split, decode, fetch);
    RerunFailsCheck(d, split, decode, fetch);
  }

  /** A downloader whose counter already holds every image of its source fails the
      check of a new archive that receives those images again. */
  lemma RerunFailsCheck(d: Downloader, split: Option<string>, decode: Decoder, fetch: Fetcher)
    requires Measure(d.source).Ok?
    requires Items(d.source, decode).failure.None?
    requires var items := Items(d.source, decode).items;
             forall i :: 0 <= i < |items| ==> WriteRecord(items[i], EffectiveSplit(split, d.splitPrefix), fetch).Ok?
    requires d.numInputs == |HostedRecords(Items(d.source, decode).items)| > 0
    ensures var run := Download(d, [], split, decode, fetch);
      run.failure == Some(CountMismatch(|run.output|, 2 * d.numInputs))
  {
    DownloadCheckIff(d, [], split, decode, fetch);
    var run := Download(d, [], split, decode, fetch);
    assert |run.output| == d.numInputs;
    assert run.downloader.numInputs == 2 * d.numInputs;
  }

  /** After a run, the downloader measures again, yields the same records and keeps
      its split prefix. */
  lemma DownloaderAfterRun(source: Source, split: Option<string>, decode: Decoder, fetch: Fetcher)
    requires Measure(source).Ok?
    ensures var d := Download(NewDownloader(source), [], split, decode, fetch).downloader;
      && Measure(d.source).Ok?
      && Items(d.source, decode) == Items(source, decode)
      && d.splitPrefix == NewDownloader(source).splitPrefix
  {
    var d := Download(NewDownloader(source), [], split, decode, fetch).downloader;
    assert d.source == Measure(source).value;
    MeasureKeepsItems(source, decode);
    if source.FromReader? {
      ExportReader.LenIdempotent(source.reader);
    }
    MeasureKeepsItems(d.source, decode);
  }

  /** Without an explicit split, everything a downloader built on an export reader
      writes lands in the reader's split directory (the directory of its first
      shard). */
  lemma ReaderDownloadUnderSplitDir(r: ExportReader.Reader, output: Archive, split: Option<string>,
                                    decode: Decoder, fetch: Fetcher)
    requires !ExportReader.Truthy(split)
    requires DirShaped(r.splitDir)
    ensures var run := Download(NewDownloader(FromReader(r)), output, split, decode, fetch);
      forall k :: |output| <= k < |run.output| ==> Dirname(run.output[k].name) == r.splitDir
  {
    var d := NewDownloader(FromReader(r));
    var run := Download(d, output, split, decode, fetch);
    var eff := EffectiveSplit(split, d.splitPrefix);
    assert eff == Some(r.splitDir);
    match Measure(d.source)
    case Err(_) =>
    case Ok(source) =>
      var items := Items(source, decode).items;
      var w := WriteAll(items, eff, fetch);
      assert run.output == output + w.members;
      WriteAllMembers(items, eff, fetch);
      forall k | |output| <= k < |run.output|
        ensures Dirname(run.output[k].name) == r.splitDir
      {
        assert run.output[k] == w.members[k - |output|];
        WrittenName(HostedRecords(items)[k - |output|], eff, fetch);
      }
  }

  /** A plain record list with no explicit split has nowhere to put images: the
      first record with hosted media aborts the run and nothing is written. */
  lemma NoSplitWritesNothing(records: seq<Data>, output: Archive, split: Option<string>,
                             decode: Decoder, fetch: Fetcher)
    requires !ExportReader.Truthy(split)
    requires |HostedRecords(records)| > 0
    ensures var run := Download(NewDownloader(FromRecords(records)), output, split, decode, fetch);
      && run.output == output
      && run.failure.Some?
      && run.downloader.numInputs == 0
  {
    var d := NewDownloader(FromRecords(records));
    var w := WriteAll(records, None, fetch);
    var h := HostedRecords(records)[0];
    HostedIsRecord(records, 0);
    assert w.members == [];
    assert Download(d, output, split, decode, fetch).output == output + w.members;
  }

  /** Every record with hosted media is one of the records. */
  lemma {:induction false} HostedIsRecord(items: seq<Data>, k: nat)
    requires k < |HostedRecords(items)|
    ensures exists i :: 0 <= i < |items| && items[i] == HostedRecords(items)[k]
    decreases |items|
  {
    if HasHostedMedia(items[0]) {
      if k > 0 {
        HostedIsRecord(items[1..], k - 1);
        var i :| 0 <= i < |items[1..]| && items[1..][i] == HostedRecords(items[1..])[k - 1];
        assert items[i + 1] == items[1..][i];
      }
    } else {
      HostedIsRecord(items[1..], k);
      var i :| 0 <= i < |items[1..]| && items[1..][i] == HostedRecords(items[1..])[k];
      assert items[i + 1] == items[1..][i];
    }
  }

  /** A reader whose only shard is named `<stem>_n-<k>` counts `-k` records, which
      `len()` rejects: the download aborts before the output archive is touched. */
  lemma NegativeShardCountAborts(r: ExportReader.Reader, stem: string, k: nat, output: Archive,
                                 split: Option<string>, decode: Decoder, fetch: Fetcher)
    requires k > 0
    requires r.inputCount == 0 && r.names == Some([stem + "_n-" + PyStr.Decimal(k)])
    ensures var d := NewDownloader(FromReader(r));
      Download(d, output, split, decode, fetch) == Run(d, output, Some(BadLength(-(k as int))))
  {
    ExportReader.NegativeShardLen(r, stem, k);
    BadLengthAborts(r, output, split, decode, fetch);
  }

  /** A reader whose count `len()` rejects aborts the download with that count,
      leaving the downloader and the output as they were. */
  lemma BadLengthAborts(r: ExportReader.Reader, output: Archive,
                        split: Option<string>, decode: Decoder, fetch: Fetcher)
    requires ExportReader.Len(r).Ok?
    requires !(0 <= ExportReader.Len(r).value.0 <= MaxSize)
    ensures var d := NewDownloader(FromReader(r));
      Download(d, output, split, decode, fetch) == Run(d, output, Some(BadLength(ExportReader.Len(r).value.0)))
  {
  }

  /** A malformed shard name aborts a download from an export reader before the
      output archive is touched. */
  lemma BadShardNameWritesNothing(d: Downloader, output: Archive, split: Option<string>,
                                  decode: Decoder, fetch: Fetcher)
    requires d.source.FromReader?
    requires ExportReader.Len(d.source.reader).Err?
    ensures var run := Download(d, output, split, decode, fetch);
      && run == Run(d, output, Some(ExportReader.Len(d.source.reader).error))
      && run.failure.value.BadShardName?
  {
    ExportReader.ShardTotalFirstBad(d.source.reader.names.value);
  }
}

=== FILE: posix_path.dfy ===
/** The POSIX path helpers the export code calls on archive member names:
    `os.path.dirname`, `os.path.join` with two arguments, and the last `/`-separated
    segment (`text.split('/')[-1]`). */
module PosixPath {
  import opened PyStr

  predicate AllSlashes(s: string) {
    forall i :: 0 <= i < |s| ==> s[i] == '/'
  }

  /** `p.rfind('/') + 1`: the index just past the last slash, 0 when there is none. */
  function LastSlashEnd(p: string): (i: nat)
    ensures i <= |p|
    ensures i > 0 ==> p[i - 1] == '/'
    ensures forall j :: i <= j < |p| ==> p[j] != '/'
    decreases |p|
  {
    if |p| == 0 then 0
    else if p[|p| - 1] == '/' then |p|
    else LastSlashEnd(p[..|p| - 1])
  }

  /** `h.rstrip('/')`. */
  function TrimSlashes(h: string): (r: string)
    ensures |r| <= |h| && r == h[..|r|]
    ensures |r| == 0 || r[|r| - 1] != '/'
    ensures AllSlashes(h[|r|..])
    decreases |h|
  {
    if |h| > 0 && h[|h| - 1] == '/' then TrimSlashes(h[..|h| - 1]) else h
  }

  /** A directory name as `dirname` produces it: empty, all slashes (the root),
      or not ending in a slash. */
  predicate DirShaped(d: string) {
    |d| == 0 || d[|d| - 1] != '/' || AllSlashes(d)
  }

  /** `os.path.dirname(p)`: everything before the last slash, with trailing slashes
      removed unless that would leave only the root. */
  function Dirname(p: string): (d: string)
    ensures |d| <= |p| && d == p[..|d|]
    ensures DirShaped(d)
    ensures forall j :: |d| <= j < |p| && j < LastSlashEnd(p) ==> p[j] == '/'
    ensures |d| <= LastSlashEnd(p)
    ensures AllSlashes(p[..LastSlashEnd(p)]) ==> d == p[..LastSlashEnd(p)]
  {
    var head := p[..LastSlashEnd(p)];
    if |head| > 0 && !AllSlashes(head) then TrimSlashes(head) else head
  }

  /** `os.path.join(a, b)`: an absolute `b` replaces `a`; otherwise a slash is put
      between them unless `a` is empty or already ends in one. */
  function PathJoin(a: string, b: string): (r: string)
    ensures |b| > 0 && b[0] == '/' ==> r == b
    ensures !(|b| > 0 && b[0] == '/') ==>
      && |a| + |b| <= |r| <= |a| + |b| + 1
      && r[..|a|] == a && r[|r| - |b|..] == b
      && (|r| == |a| + |b| + 1 ==> r[|a|] == '/')
      && (|r| == |a| + |b| <==> |a| == 0 || a[|a| - 1] == '/')
  {
    if |b| > 0 && b[0] == '/' then b
    else if |a| == 0 || a[|a| - 1] == '/' then a + b
    else a + "/" + b
  }

  /** `s.split('/')[-1]`: the text after the last slash, or all of it. */
  function LastSegment(s: string): (seg: string)
    ensures '/' !in seg
    ensures |seg| <= |s| && s[|s| - |seg|..] == seg
    ensures |seg| == |s| || s[|s| - |seg| - 1] == '/'
  {
    LastPieceOnChar(s, '/');
    LastPieceAfterLastSlash(s);
    LastPiece(s, "/")
  }

  /** Splitting on `/` and taking the last piece agrees with cutting just after
      the last slash (`s[s.rfind('/') + 1:]`). */
  lemma LastPieceAfterLastSlash(s: string)
    ensures LastPiece(s, "/") == s[LastSlashEnd(s)..]
  {
    var i := LastSlashEnd(s);
    var b := s[i..];
    assert forall k :: 0 <= k < |b| ==> b[k] != "/"[0] by {
      forall k | 0 <= k < |b| ensures b[k] != "/"[0] {
        assert b[k] == s[i + k];
      }
    }
    if i == 0 {
      assert b == s;
      SplitUncut(s, "/");
    } else {
      assert s == s[..i - 1] + "/" + b;
      LastPieceAfterSep(s[..i - 1], "/", b);
    }
  }

  /** Joining a directory shaped as `dirname` returns it with a slash-free file
      name, and taking `dirname` and the last segment back, recovers both parts. */
  lemma {:induction false} JoinSplitsBack(d: string, b: string)
    requires DirShaped(d)
    requires '/' !in b
    ensures Dirname(PathJoin(d, b)) == d
    ensures LastSegment(PathJoin(d, b)) == b
  {
    var p := PathJoin(d, b);
    assert forall i :: 0 <= i < |b| ==> b[i] != "/"[0];
    if |d| == 0 {
      assert p == b;
      assert LastSlashEnd(p) == 0;
      SplitUncut(b, "/");
    } else if AllSlashes(d) {
      assert p == d + b;
      assert p[|d| - 1] == '/';
      assert LastSlashEnd(p) == |d|;
      assert p[..|d|] == d;
      assert p == d[..|d| - 1] + "/" + b;
      LastPieceAfterSep(d[..|d| - 1], "/", b);
    } else {
      assert p == d + "/" + b;
      assert p[|d|] == '/';
      assert LastSlashEnd(p) == |d| + 1;
      var head := p[..|d| + 1];
      assert head == d + "/";
      assert !AllSlashes(head) by { assert head[|d| - 1] != '/'; }
      assert head[..|d|] == d;
      assert TrimSlashes(head) == TrimSlashes(d) == d;
      LastPieceAfterSep(d, "/", b);
    }
  }
}

=== FILE: pystr.dfy ===
/** Python string behaviour the export code relies on: `str.split(sep)` with an
    explicit separator, and `int(text)` for base-10 text. */
module PyStr {
  import opened Results

  /** `s.split(sep)`: scans left to right and cuts at each non-overlapping
      occurrence of `sep`; there is always at least one piece. */
  function Split(s: string, sep: string): (pieces: seq<string>)
    requires |sep| > 0
    ensures |pieces| >= 1
    decreases |s|
  {
    if |s| < |sep| then [s]
    else if s[..|sep|] == sep then [""] + Split(s[|sep|..], sep)
    else
      var rest := Split(s[1..], sep);
      [[s[0]] + rest[0]] + rest[1..]
  }

  /** `sep.join(pieces)`, the inverse of `Split`. */
  function Join(pieces: seq<string>, sep: string): string
    requires |pieces| >= 1
    decreases |pieces|
  {
    if |pieces| == 1 then pieces[0] else pieces[0] + sep + Join(pieces[1..], sep)
  }

  function Last<T>(xs: seq<T>): T
    requires |xs| >= 1
  {
    xs[|xs| - 1]
  }

  /** `s.split(sep)[-1]`: the text after the last cut. */
  function LastPiece(s: string, sep: string): string
    requires |sep| > 0
  {
    Last(Split(s, sep))
  }

  /** No proper suffix of `sep` starts a new occurrence of it: the first character
      does not occur again. True of "_n" and of "/". */
  predicate NonOverlapping(sep: string) {
    |sep| > 0 && forall i :: 0 < i < |sep| ==> sep[i] != sep[0]
  }

  /** Splitting and re-joining gives the text back. */
  lemma {:induction false} SplitJoin(s: string, sep: string)
    requires |sep| > 0
    ensures Join(Split(s, sep), sep) == s
    decreases |s|
  {
    if |s| < |sep| {
    } else if s[..|sep|] == sep {
      var tail := s[|sep|..];
      SplitJoin(tail, sep);
      JoinGlue("", Split(tail, sep), sep);
      assert s == sep + tail;
    } else {
      var rest := Split(s[1..], sep);
      SplitJoin(s[1..], sep);
      JoinGlue([s[0]], rest, sep);
      assert s == [s[0]] + s[1..];
    }
  }

  /** Gluing text onto the first piece glues it onto the joined result; with an
      empty first piece instead, the joined result gains a leading separator. */
  lemma JoinGlue(c: string, rest: seq<string>, sep: string)
    requires |rest| >= 1
    ensures Join([c + rest[0]] + rest[1..], sep) == c + Join(rest, sep)
    ensures c == "" ==> Join([""] + rest, sep) == sep + Join(rest, sep)
  {
    var pieces := [c + rest[0]] + rest[1..];
    assert pieces[0] == c + rest[0];
    if |rest| > 1 {
      assert pieces[1..] == rest[1..];
    }
    assert ([""] + rest)[1..] == rest;
  }

  /** A text in which the separator's first character never occurs is one piece. */
  lemma {:induction false} SplitUncut(b: string, sep: string)
    requires |sep| > 0
    requires forall i :: 0 <= i < |b| ==> b[i] != sep[0]
    ensures Split(b, sep) == [b]
    decreases |b|
  {
    if |b| < |sep| {
    } else {
      assert b[..|sep|][0] == b[0];
      SplitUncut(b[1..], sep);
      assert [b[0]] + b[1..] == b;
    }
  }

  /** When `b` has no occurrence of the separator's first character, the last
      piece of `a + sep + b` is exactly `b`, whatever `a` holds. */
  lemma {:induction false} LastPieceAfterSep(a: string, sep: string, b: string)
    requires NonOverlapping(sep)
    requires forall i :: 0 <= i < |b| ==> b[i] != sep[0]
    ensures |Split(a + sep + b, sep)| >= 2
    ensures LastPiece(a + sep + b, sep) == b
    decreases |a|
  {
    var s := a + sep + b;
    if 0 < |a| < |sep| {
      ShortPrefixNoSep(a, sep, b);
    }
    if |a| == 0 {
      assert s[..|sep|] == sep;
      assert s[|sep|..] == b;
      SplitUncut(b, sep);
    } else if s[..|sep|] == sep {
      assert s[|sep|..] == a[|sep|..] + sep + b;
      LastPieceAfterSep(a[|sep|..], sep, b);
    } else {
      assert s[1..] == a[1..] + sep + b;
      LastPieceAfterSep(a[1..], sep, b);
    }
  }

  /** A separator whose first character does not recur cannot start inside a
      prefix shorter than itself and run into its own copy. */
  lemma ShortPrefixNoSep(a: string, sep: string, b: string)
    requires NonOverlapping(sep)
    requires 0 < |a| < |sep|
    ensures (a + sep + b)[..|sep|] != sep
  {
    var s := a + sep + b;
    assert s[..|sep|][|a|] == sep[0];
    assert sep[|a|] != sep[0];
  }

  /** `sep` occurs in `s` at position `i`. */
  predicate SepAt(s: string, sep: string, i: int) {
    0 <= i && i + |sep| <= |s| && s[i..i + |sep|] == sep
  }

  /** The last piece of a split is a suffix of the text holding no copy of the
      separator. It is the whole text when nothing was cut, and otherwise it
      follows a copy of the separator. */
  ghost predicate LastPieceShaped(s: string, sep: string)
    requires |sep| > 0
  {
    Shaped(s, sep, LastPiece(s, sep), |Split(s, sep)|)
  }

  /** `p` is shaped as the last of `n` pieces of `s` split on `sep`. */
  ghost predicate Shaped(s: string, sep: string, p: string, n: nat) {
    && |p| <= |s| && s[|s| - |p|..] == p
    && (forall i :: !SepAt(p, sep, i))
    && (n == 1 ==> p == s)
    && (n >= 2 ==> |p| + |sep| <= |s| && SepAt(s, sep, |s| - |p| - |sep|))
  }

  lemma {:induction false} LastPieceShape(s: string, sep: string)
    requires |sep| > 0
    ensures LastPieceShaped(s, sep)
    decreases |s|
  {
    if |s| < |sep| {
      ShapeShort(s, sep);
    } else if s[..|sep|] == sep {
      LastPieceShape(s[|sep|..], sep);
      ShapeAfterCut(s, sep);
    } else {
      LastPieceShape(s[1..], sep);
      ShapeAfterChar(s, sep);
    }
  }

  /** A text shorter than the separator is its own single piece. */
  lemma ShapeShort(s: string, sep: string)
    requires |s| < |sep|
    ensures LastPieceShaped(s, sep)
  {
    assert Split(s, sep) == [s];
    assert forall i :: !SepAt(s, sep, i);
  }

  /** A text that starts with the separator has the last piece of what follows it. */
  lemma ShapeAfterCut(s: string, sep: string)
    requires 0 < |sep| <= |s| && s[..|sep|] == sep
    requires LastPieceShaped(s[|sep|..], sep)
    ensures LastPieceShaped(s, sep)
  {
    var t := s[|sep|..];
    CutKeepsLast(s, sep);
    ShapedAfterCut(s, sep, LastPiece(t, sep), |Split(t, sep)|);
  }

  /** A text that does not start with the separator: its first character joins the
      first piece of the rest. */
  lemma ShapeAfterChar(s: string, sep: string)
    requires 0 < |sep| <= |s| && s[..|sep|] != sep
    requires LastPieceShaped(s[1..], sep)
    ensures LastPieceShaped(s, sep)
  {
    var t := s[1..];
    var rest := Split(t, sep);
    assert Split(s, sep) == [[s[0]] + rest[0]] + rest[1..];
    if |rest| == 1 {
      assert rest[0] == LastPiece(t, sep);
      assert [s[0]] + t == s;
      ShapedUncut(s, sep);
    } else {
      assert LastPiece(s, sep) == LastPiece(t, sep);
      ShapedAfterChar(s, sep, LastPiece(t, sep), |rest|);
    }
  }

  /** Cutting a leading separator adds an empty first piece and keeps the last. */
  lemma CutKeepsLast(s: string, sep: string)
    requires 0 < |sep| <= |s| && s[..|sep|] == sep
    ensures |Split(s, sep)| == |Split(s[|sep|..], sep)| + 1
    ensures LastPiece(s, sep) == LastPiece(s[|sep|..], sep)
  {
    var rest := Split(s[|sep|..], sep);
    assert Split(s, sep) == [""] + rest;
    assert ([""] + rest)[|rest|] == rest[|rest| - 1];
  }

  /** After a leading separator, the last piece of the rest still ends the text
      and follows a copy of the separator. */
  lemma ShapedAfterCut(s: string, sep: string, q: string, m: nat)
    requires 0 < |sep| <= |s| && s[..|sep|] == sep
    requires m >= 1 && Shaped(s[|sep|..], sep, q, m)
    ensures Shaped(s, sep, q, m + 1)
  {
    var t := s[|sep|..];
    SuffixOfDrop(s, |sep|, q);
    if m == 1 {
      assert s[0..0 + |sep|] == sep;
    } else {
      SepShift(s, sep, |sep|, |t| - |q| - |sep|);
    }
  }

  /** A first character that starts no separator leaves a cut piece where it was. */
  lemma ShapedAfterChar(s: string, sep: string, q: string, m: nat)
    requires 0 < |sep| <= |s|
    requires m >= 2 && Shaped(s[1..], sep, q, m)
    ensures Shaped(s, sep, q, m)
  {
    var t := s[1..];
    SuffixOfDrop(s, 1, q);
    SepShift(s, sep, 1, |t| - |q| - |sep|);
  }

  /** A text that neither starts with the separator nor holds one in its tail is a
      single piece. */
  lemma ShapedUncut(s: string, sep: string)
    requires 0 < |sep| <= |s| && s[..|sep|] != sep
    requires Shaped(s[1..], sep, s[1..], 1)
    requires |Split(s, sep)| == 1 && LastPiece(s, sep) == s
    ensures LastPieceShaped(s, sep)
  {
    NoSepAfterFirst(s, sep);
  }

  /** A suffix of `s[k..]` is a suffix of `s`. */
  lemma SuffixOfDrop(s: string, k: nat, q: string)
    requires k <= |s| && |q| <= |s| - k && s[k..][|s| - k - |q|..] == q
    ensures s[|s| - |q|..] == q
  {
    assert s[k..][|s| - k - |q|..] == s[|s| - |q|..];
  }

  /** A copy of the separator in `s[k..]` is one in `s`, `k` places later. */
  lemma SepShift(s: string, sep: string, k: nat, j: nat)
    requires k <= |s| && SepAt(s[k..], sep, j)
    ensures SepAt(s, sep, k + j)
  {
    SliceOfDrop(s, k, j, |sep|);
  }

  /** A text that does not start with the separator, and whose tail holds no copy
      of it, holds no copy of it. */
  lemma NoSepAfterFirst(s: string, sep: string)
    requires 0 < |sep| <= |s| && s[..|sep|] != sep
    requires forall i :: !SepAt(s[1..], sep, i)
    ensures forall i :: !SepAt(s, sep, i)
  {
    forall i ensures !SepAt(s, sep, i) {
      if 0 < i && i + |sep| <= |s| {
        SliceOfDrop(s, 1, i - 1, |sep|);
        assert !SepAt(s[1..], sep, i - 1);
      }
    }
  }

  /** A slice of `s[k..]` is the slice of `s` shifted by `k`. */
  lemma SliceOfDrop(s: string, k: nat, j: nat, n: nat)
    requires k + j + n <= |s|
    ensures s[k..][j..j + n] == s[k + j..k + j + n]
  {
    var a, b := s[k..][j..j + n], s[k + j..k + j + n];
    assert forall m :: 0 <= m < n ==> a[m] == b[m];
  }

  /** The last piece of a split on a single character is a suffix of the text
      and holds no copy of that character. */
  lemma {:induction false} LastPieceOnChar(s: string, c: char)
    ensures var p := LastPiece(s, [c]); |p| <= |s| && s[|s| - |p|..] == p
    ensures c !in LastPiece(s, [c])
    decreases |s|
  {
    if |s| == 0 {
      assert Split(s, [c]) == [s];
    } else {
      var t := s[1..];
      LastPieceOnChar(t, c);
      var rest := Split(t, [c]);
      var q := Last(rest);
      assert t[|t| - |q|..] == q;
      if s[0] == c {
        assert s[..1] == [c];
        assert Split(s, [c]) == [""] + rest;
        assert LastPiece(s, [c]) == q;
        assert s[|s| - |q|..] == t[|t| - |q|..];
      } else {
        assert s[..1] != [c];
        var pieces := [[s[0]] + rest[0]] + rest[1..];
        assert Split(s, [c]) == pieces;
        if |rest| == 1 {
          SplitJoin(t, [c]);
          assert rest[0] == t;
          assert [s[0]] + t == s;
          assert LastPiece(s, [c]) == s;
        } else {
          assert LastPiece(s, [c]) == q;
          assert s[|s| - |q|..] == t[|t| - |q|..];
        }
      }
    }
  }

  // ---------------------------------------------------------------------------
  // int(text), base 10

  /** Whitespace that `int()` strips around ASCII text: tab, line feed, vertical
      tab, form feed, carriage return and space. The separators 0x1C-0x1F, which
      `str.strip()` would remove, are not among them. */
  predicate IsSpace(c: char) {
    (0x09 <= c as int <= 0x0D) || c == ' '
  }

  predicate IsDigit(c: char) {
    '0' <= c <= '9'
  }

  function DigitValue(c: char): (d: nat)
    requires IsDigit(c)
  {
    c as int - '0' as int
  }

  function DigitChar(d: nat): (c: char)
    requires d < 10
    ensures IsDigit(c) && DigitValue(c) == d
  {
    ('0' as int + d) as char
  }

  function TrimLeft(s: string): string
    decreases |s|
  {
    if |s| > 0 && IsSpace(s[0]) then TrimLeft(s[1..]) else s
  }

  function TrimRight(s: string): string
    decreases |s|
  {
    if |s| > 0 && IsSpace(s[|s| - 1]) then TrimRight(s[..|s| - 1]) else s
  }

  /** `s.strip()` for the whitespace `int()` accepts around a number. */
  function Strip(s: string): string {
    TrimRight(TrimLeft(s))
  }

  predicate DigitsOrUnderscores(s: string) {
    forall i :: 0 <= i < |s| ==> IsDigit(s[i]) || s[i] == '_'
  }

  /** The digit body `int()` accepts: digits, with single underscores allowed
      between two digits (PEP 515 grouping). */
  predicate DigitBody(s: string) {
    && |s| > 0
    && IsDigit(s[0])
    && DigitsOrUnderscores(s)
    && forall i :: 0 <= i < |s| && s[i] == '_' ==> i + 1 < |s| && IsDigit(s[i + 1])
  }

  /** The number a digit body denotes, underscores ignored. */
  function BodyValue(s: string): nat
    requires DigitsOrUnderscores(s)
    decreases |s|
  {
    if |s| == 0 then 0
    else
      var init := s[..|s| - 1];
      assert forall i :: 0 <= i < |init| ==> init[i] == s[i];
      if s[|s| - 1] == '_' then BodyValue(init)
      else BodyValue(init) * 10 + DigitValue(s[|s| - 1])
  }

  /** `int(s)`: `None` where Python raises ValueError. */
  function ParseInt(s: string): (r: Option<int>)
    ensures r.Some? ==>
      var t := Strip(s);
      && |t| > 0
      && forall i :: 0 <= i < |t| ==> IsDigit(t[i]) || t[i] == '_' || (i == 0 && t[0] in "+-")
  ensures r.Some? ==>
      var t := Strip(s);
      && IsDigit(t[|t| - 1])
      && forall i :: 0 <= i < |t| && t[i] == '_' ==> 0 < i < |t| - 1 && IsDigit(t[i - 1]) && IsDigit(t[i + 1])
  ensures var t := Strip(s);
      (DigitBody(t) || (|t| > 0 && t[0] in "+-" && DigitBody(t[1..]))) ==> r.Some?
  {
    var t := Strip(s);
    if |t| > 0 && (t[0] == '+' || t[0] == '-') then
      var body := t[1..];
      if DigitBody(body) then
        var v := BodyValue(body) as int;
        Some(if t[0] == '-' then -v else v)
      else None
    else if DigitBody(t) then Some(BodyValue(t))
    else None
  }

  /** `str(n)` for a natural number: its shortest decimal spelling. */
  function Decimal(n: nat): (s: string)
    ensures |s| > 0 && forall i :: 0 <= i < |s| ==> IsDigit(s[i])
  {
    if n < 10 then [DigitChar(n)] else Decimal(n / 10) + [DigitChar(n % 10)]
  }

  lemma {:induction false} DecimalValue(n: nat)
    ensures BodyValue(Decimal(n)) == n
  {
    if n >= 10 {
      var s := Decimal(n);
      assert s[..|s| - 1] == Decimal(n / 10);
      DecimalValue(n / 10);
    } else {
      assert Decimal(n)[..0] == [];
    }
  }

  /** A number padded with one of the separators 0x1C-0x1F, on either side, is not
      an integer to `int()`, though `str.strip()` would remove the separator. */
  lemma SeparatorIsNotSpace(c: char, n: nat)
    requires 0x1C <= c as int <= 0x1F
    ensures ParseInt([c] + Decimal(n)).None?
    ensures ParseInt(Decimal(n) + [c]).None?
  {
    var s := Decimal(n);
    var a := [c] + s;
    assert a[|a| - 1] == s[|s| - 1];
    NoSpaceAround(a);
    assert Strip(a)[0] == c;
    var b := s + [c];
    assert b[0] == s[0];
    NoSpaceAround(b);
    assert Strip(b)[|b| - 1] == c;
  }

  /** `int(str(n)) == n`, and `int("-" + str(n)) == -n`. */
  lemma ParseDecimal(n: nat)
    ensures ParseInt(Decimal(n)) == Some(n)
    ensures ParseInt("-" + Decimal(n)).Some? && ParseInt("-" + Decimal(n)).value == -(n as int)
  {
    var s := Decimal(n);
    DecimalValue(n);
    NoSpaceAround(s);
    assert DigitBody(s);
    var m := "-" + s;
    assert m[|m| - 1] == s[|s| - 1];
    NoSpaceAround(m);
    assert m[1..] == s;
  }

  /** Text that neither starts nor ends with whitespace is left alone by `strip`. */
  lemma NoSpaceAround(s: string)
    requires |s| > 0 && !IsSpace(s[0]) && !IsSpace(s[|s| - 1])
    ensures Strip(s) == s
  {
    assert TrimLeft(s) == s;
  }
}

=== FILE: records.dfy ===
/** The part of the exported `Data` message the export code touches:
    `data.image.hosted.{prefix, suffix, sizes}`. Unset protobuf strings are "". */
module Records {
  import opened Results
  import Zip

  datatype Hosted = Hosted(prefix: string, suffix: string, sizes: seq<string>)

  datatype Image = Image(hosted: Hosted)

  datatype Data = Data(image: Image)

  /** `DataBatch.FromString`: the records a shard's bytes decode to, or `None`
      where decoding raises. The protobuf decoder itself is not modelled. */
  type Decoder = Zip.Bytes -> Option<seq<Data>>

  /** `data.image.hosted.prefix` is truthy: the record references hosted media. */
  predicate HasHostedMedia(d: Data) {
    d.image.hosted.prefix != ""
  }
}

=== FILE: results.dfy ===
/** Failure-compatible wrappers and the error taxonomy of the export pipeline.
    Every Python exception the export code can raise on its own logic becomes one
    `Error` constructor; a `Result` carries either a value or the error that fired. */
module Results {

  datatype Option<+T> = None | Some(value: T)

  /** What went wrong, one constructor per exception the source raises. */
  datatype Error =
    | NoSource                                  // neither archive URL nor local path (AssertionError)
    | LoadFailed(location: string)              // download or zip open failed
    | BadShardName(name: string)                // int() of the text after the last "_n" (ValueError)
    | MissingMember(name: string)               // archive.read of a name the archive lacks (KeyError)
    | CorruptShard(name: string)                // DataBatch.FromString failed (DecodeError)
    | MissingOrig(suffix: string)               // hosted media without the "orig" size (AssertionError)
    | NoSplit                                   // os.path.join(None, ...) (TypeError)
    | FetchFailed(url: string)                  // HTTP fetch or image decode failed
    | BadLength(count: int)                     // len() of a negative (ValueError) or oversized (OverflowError) count
    | CountMismatch(found: nat, expected: nat)  // output archive member count check (AssertionError)

  datatype Result<+T> = Ok(value: T) | Err(error: Error) {

    predicate IsFailure() {
      Err?
    }

    function PropagateFailure<U>(): Result<U>
      requires Err?
    {
      Err(error)
    }

    function Extract(): T
      requires Ok?
    {
      value
    }
  }
}

=== FILE: scenario.dfy ===
/** A worked example: an export with two shards, `all/shard0_n2` (one record with
    hosted media, one without) and `all/shard1_n1` (one record with hosted media).
    The records are described by what the code looks at, not spelled out. */
module Scenario {
  import opened Results
  import opened PyStr
  import opened PosixPath
  import opened Zip
  import opened Records
  import opened ExportReader
  import opened InputDownloader

  const archive: Archive := [Member("all/shard0_n2", [0]), Member("all/shard1_n1", [1])]

  const url := "https://x/export.zip"

  function Load(loc: Location): Option<Archive> {
    Some(archive)
  }

  const jpeg: Bytes := [0xFF, 0xD8]

  function Fetch(imageUrl: string): Option<Bytes> {
    Some(jpeg)
  }

  /** A record with original-size media stored at `<src>/<seg>` on the media host;
      `src` is any path and plays no part in where the image is written. */
  predicate MediaAt(d: Data, src: string, seg: string) {
    && HasHostedMedia(d)
    && "orig" in d.image.hosted.sizes
    && d.image.hosted.suffix == src + "/" + seg
    && '/' !in seg
  }

  /** A split directory that is named and does not end in a slash. */
  predicate PlainDir(dir: string) {
    |dir| > 0 && dir[|dir| - 1] != '/'
  }

  /** The shard bytes decode to the two batches of the example. */
  predicate ExampleDecoder(decode: Decoder, x: Data, y: Data, z: Data) {
    decode([0]) == Some([x, y]) && decode([1]) == Some([z])
  }

  /** Opening the export lists both shards and takes `all` as the split directory. */
  lemma OpensWithSplitAll()
    ensures var r := Open(Some(url), None, Load);
      && r.Ok?
      && r.value.archive == archive
      && r.value.names == Some(["all/shard0_n2", "all/shard1_n1"])
      && r.value.inputCount == 0
      && r.value.splitDir == "all"
  {
    assert ChooseLocation(Some(url), None) == Ok(Url(url));
    FirstMemberInAll();
    assert NameList(archive) == ["all/shard0_n2", "all/shard1_n1"];
  }

  /** The example's first member, `all/shard0_n2`, lies in directory `all`. */
  lemma FirstMemberInAll()
    ensures Dirname(archive[0].name) == "all"
  {
    assert archive[0].name == PathJoin("all", "shard0_n2");
    JoinSplitsBack("all", "shard0_n2");
  }

  lemma ShardNamesAnnounce()
    ensures ShardCount("all/shard0_n2") == Some(2)
    ensures ShardCount("all/shard1_n1") == Some(1)
  {
    assert Decimal(2) == "2" && Decimal(1) == "1";
    assert "all/shard0_n2" == "all/shard0" + "_n" + Decimal(2);
    assert "all/shard1_n1" == "all/shard1" + "_n" + Decimal(1);
    ShardCountOfName("all/shard0", 2);
    ShardCountOfName("all/shard1", 1);
  }

  lemma ShardsRead()
    ensures Read(archive, "all/shard0_n2") == Some([0])
    ensures Read(archive, "all/shard1_n1") == Some([1])
  {
  }

  /** The reader announces three records: two for the first shard, one for the
      second. */
  lemma ReaderCountsThree()
    ensures var r := Open(Some(url), None, Load).value;
      Len(r).Ok? && Len(r).value.0 == 3
  {
    OpensWithSplitAll();
    ShardNamesAnnounce();
    var names: seq<string> := ["all/shard0_n2", "all/shard1_n1"];
    ShardTotalStep(names[1..], 1);
    ShardTotalStep(names, 2);
  }

  /** Iteration yields the first shard's two records, then the second shard's one. */
  lemma ReaderYieldsThree(decode: Decoder, x: Data, y: Data, z: Data)
    requires ExampleDecoder(decode, x, y, z)
    ensures Iterate(Open(Some(url), None, Load).value, decode) == Stream([x, y, z], None)
  {
    OpensWithSplitAll();
    ShardsRead();
    var names: seq<string> := ["all/shard0_n2", "all/shard1_n1"];
    ShardsStep(archive, names[1..], decode);
    ShardsStep(archive, names, decode);
    assert [x, y] + [z] == [x, y, z];
  }

  /** A record with media at `<src>/<seg>` is written as `<dir>/<seg>.jpg` when
      `dir` is the split: the media's own directory is dropped. */
  lemma WritesUnder(d: Data, src: string, seg: string, dir: string)
    requires MediaAt(d, src, seg) && PlainDir(dir)
    ensures WriteRecord(d, Some(dir), Fetch) == Ok(Some(Member(dir + "/" + seg + ".jpg", jpeg)))
  {
    var h := d.image.hosted;
    assert forall i :: 0 <= i < |seg| ==> seg[i] != "/"[0];
    LastPieceAfterSep(src, "/", seg);
    assert LastSegment(h.suffix) == seg;
    var file := seg + ".jpg";
    assert ImageName(h) == file;
    assert file[0] != '/' by {
      if |seg| > 0 { assert file[0] == seg[0]; } else { assert file == ".jpg"; }
    }
    assert PathJoin(dir, file) == dir + "/" + file;
    assert dir + "/" + file == dir + "/" + seg + ".jpg";
  }

  /** A pass that writes its first record puts that member in front of what the
      rest of the pass writes; a pass that skips it writes what the rest writes. */
  lemma WriteAllFirst(d: Data, rest: seq<Data>, split: Option<string>, fetch: Fetcher)
    requires WriteRecord(d, split, fetch).Ok?
    ensures WriteRecord(d, split, fetch).value.None? ==> WriteAll([d] + rest, split, fetch) == WriteAll(rest, split, fetch)
    ensures WriteRecord(d, split, fetch).value.Some? ==>
      WriteAll([d] + rest, split, fetch)
        == Writes([WriteRecord(d, split, fetch).value.value] + WriteAll(rest, split, fetch).members,
                  WriteAll(rest, split, fetch).failure)
  {
    assert ([d] + rest)[1..] == rest;
  }

  /** Writing the three records appends the two images and skips the record
      without media. */
  lemma WritesTwoOfThree(dir: string, x: Data, y: Data, z: Data, src1: string, s1: string, src2: string, s2: string)
    requires PlainDir(dir)
    requires MediaAt(x, src1, s1) && !HasHostedMedia(y) && MediaAt(z, src2, s2)
    ensures WriteAll([x, y, z], Some(dir), Fetch)
            == Writes([Member(dir + "/" + s1 + ".jpg", jpeg), Member(dir + "/" + s2 + ".jpg", jpeg)], None)
  {
    WritesUnder(x, src1, s1, dir);
    WritesUnder(z, src2, s2, dir);
    WriteAllFirst(z, [], Some(dir), Fetch);
    assert [z] + [] == [z];
    WriteAllFirst(y, [z], Some(dir), Fetch);
    assert [y] + [z] == [y, z];
    WriteAllFirst(x, [y, z], Some(dir), Fetch);
    assert [x] + [y, z] == [x, y, z];
  }

  /** A fresh download from a reader whose records all write, into a new archive,
      outputs exactly what the writing loop writes under the reader's split
      directory, and passes its check. */
  lemma FreshRunFromReader(r: Reader, decode: Decoder, items: seq<Data>, out: Archive)
    requires Measure(FromReader(r)).Ok?
    requires Iterate(r, decode) == Stream(items, None)
    requires WriteAll(items, Some(r.splitDir), Fetch) == Writes(out, None)
    ensures var run := Download(NewDownloader(FromReader(r)), [], None, decode, Fetch);
      run.failure.None? && run.output == out
  {
    var d := NewDownloader(FromReader(r));
    assert EffectiveSplit(None, d.splitPrefix) == Some(r.splitDir);
    MeasureKeepsItems(d.source, decode);
    assert [] + out == out;
  }

  /** The opened example reader's count is accepted by `len()`, it yields all three
      records, and its split directory is `all`. */
  lemma ExampleReaderFacts(r: Reader, decode: Decoder, x: Data, y: Data, z: Data)
    requires r == Open(Some(url), None, Load).value
    requires ExampleDecoder(decode, x, y, z)
    ensures Measure(FromReader(r)).Ok?
    ensures Iterate(r, decode) == Stream([x, y, z], None)
    ensures r.splitDir == "all"
  {
    OpensWithSplitAll();
    ReaderCountsThree();
    ReaderYieldsThree(decode, x, y, z);
  }

  /** The example's three records write as `all/<s1>.jpg` and `all/<s2>.jpg`,
      wherever their media is stored. */
  lemma ExampleWrites(x: Data, y: Data, z: Data, src1: string, s1: string, src2: string, s2: string)
    requires MediaAt(x, src1, s1) && !HasHostedMedia(y) && MediaAt(z, src2, s2)
    ensures WriteAll([x, y, z], Some("all"), Fetch)
            == Writes([Member("all/" + s1 + ".jpg", jpeg), Member("all/" + s2 + ".jpg", jpeg)], None)
  {
    WritesTwoOfThree("all", x, y, z, src1, s1, src2, s2);
    assert "all" + "/" == "all/";
  }

  /** A new downloader over the opened example export writes exactly the two
      images with hosted media, both under the split directory `all/` whatever
      directories the media is stored in, and passes its integrity check. */
  lemma DownloadWritesTwo(r: Reader, decode: Decoder, x: Data, y: Data, z: Data,
                          src1: string, s1: string, src2: string, s2: string)
    requires r == Open(Some(url), None, Load).value
    requires ExampleDecoder(decode, x, y, z)
    requires MediaAt(x, src1, s1) && !HasHostedMedia(y) && MediaAt(z, src2, s2)
    ensures var run := Download(NewDownloader(FromReader(r)), [], None, decode, Fetch);
      && run.failure.None?
      && run.output == [Member("all/" + s1 + ".jpg", jpeg), Member("all/" + s2 + ".jpg", jpeg)]
  {
    ExampleReaderFacts(r, decode, x, y, z);
    ExampleWrites(x, y, z, src1, s1, src2, s2);
    FreshRunFromReader(r, decode, [x, y, z], [Member("all/" + s1 + ".jpg", jpeg), Member("all/" + s2 + ".jpg", jpeg)]);
  }
}

=== FILE: zip.dfy ===
/** The zip container as the export code sees it: an ordered list of named
    members with their bytes. Compression and the file format are not modelled. */
module Zip {
  import opened Results

  newtype Byte = x: int | 0 <= x < 256

  type Bytes = seq<Byte>

  datatype Member = Member(name: string, data: Bytes)

  /** Members in the order they were written (duplicates allowed, as zipfile allows them). */
  type Archive = seq<Member>

  /** `namelist()`: every member's name, in archive order, duplicates included. */
  function NameList(a: Archive): (names: seq<string>)
    ensures |names| == |a|
    ensures forall i :: 0 <= i < |a| ==> names[i] == a[i].name
  {
    seq(|a|, i requires 0 <= i < |a| => a[i].name)
  }

  /** `read(name)`: the bytes of the LAST member carrying that name (a later entry
      shadows an earlier one, `ReadLast`); `None` where zipfile raises KeyError. */
  function Read(a: Archive, name: string): (r: Option<Bytes>)
    ensures r.None? <==> forall i :: 0 <= i < |a| ==> a[i].name != name
    decreases |a|
  {
    if |a| == 0 then None
    else if a[|a| - 1].name == name then Some(a[|a| - 1].data)
    else
      var r := Read(a[..|a| - 1], name);
      assert forall i :: 0 <= i < |a| - 1 ==> a[..|a| - 1][i] == a[i];
      r
  }

  /** When member `i` is the last one named `name`, `read(name)` returns its bytes,
      whatever earlier members of that name hold. */
  lemma {:induction false} ReadLast(a: Archive, name: string, i: nat)
    requires i < |a| && a[i].name == name
    requires forall j :: i < j < |a| ==> a[j].name != name
    ensures Read(a, name) == Some(a[i].data)
    decreases |a|
  {
    if i < |a| - 1 {
      var init := a[..|a| - 1];
      assert init[i] == a[i];
      assert forall j :: i < j < |init| ==> init[j] == a[j];
      ReadLast(init, name, i);
    }
  }
}
